=== FILE: README.md ===
# vita-gamemate core, modelled in Dafny

vita-gamemate is a Django back end where users book paid gaming sessions
with "mates". This project models its request-handling core as pure
functions over an immutable store. Each handler takes the store and a
request and returns the new store and a response.

- **Unread counters** (`UnreadCounts`). Each chat membership has a
  durable unread counter. An optional Redis cache sits in front of it:
  reads fill the cache and increments write through with `INCR`. The
  cache's 300-second expiry is modelled as eviction at an arbitrary
  moment. Redis faults are an explicit `CacheHealth` parameter.
- **Chat** (`ChatModel`, `ChatSession`, `ChatViews`).
  - The websocket consumer: room groups, message save and broadcast,
    delivery to every channel in a group.
  - The REST views: create or reuse a 1:1 room, the room list newest
    first, the message list.
- **Wallets** (`Wallets`). Balance, recharge, withdraw and admin recharge,
  with their ordered validation and 404 paths.
- **Mates and game requests** (`Mates`, `GameRequests`).
  - Registering a game turns a user into a mate.
  - A game request goes through create, accept and reject, with the
    views' ordered guard checks.
- **Reviews** (`Reviews`). The owner of a completed request may review it
  once, with a rating in [1.0, 5.0]. Review lists are newest first, ten to
  a page.
- **Online status and profiles** (`OnlineStatus`, `Profiles`).
  - The status socket writes `str(bool)` under `user:<id>:is_online`, and
    profiles read the flag back case-insensitively.
  - The socket takes its token from the text after the last `token=` of
    the query string.
  - A profile PATCH checks nickname uniqueness against other users only.
- **Support modules.**
  - `Wrappers`: `Option`, `Result`, and `Lookup`, which stands for an ORM
    `.get()` outcome: one row, `DoesNotExist` or `MultipleObjectsReturned`.
  - `Text`: `str(int)`, ASCII lower-casing, substring search.
  - `Query`: `filter`, `get`, `first`, `order_by("-created_at")` over
    tables held as sequences in primary-key order.
  - `Pagination`: Django REST framework's page-number paginator.

Where the code and its surrounding documentation or tests disagree, the
model follows the code:

- A test expects a review of an uncompleted request to succeed. The
  serializer refuses it (src/reviews/serializers/serializers.py:44-45), and
  so does the model.
- `StatusConsumer.connect` keeps running after `close()`.
  - An anonymous user is closed, then marked online under
    `user:None:is_online`, then accepted.
  - On an authentication exception `self.user` is never assigned, so the
    status write raises after the close.

  `OnlineStatus.StatusConnect` models both paths as written.
- The room view's self-chat case is modelled as written. When no room with
  oneself exists, the view saves the room and the caller's membership, and
  then the second membership insert violates `unique_together`. The model
  reports `ServerError` and keeps the room with its one member; see
  "## Findings".
- An accept payload without `is_accept` falls off the end of the view, and
  the model reports `ServerError`.

One exception: the chat tables follow the evidently intended schema rather
than the code as written (a message's text field and the membership's
unread counter). The lines starting `ChatViews.CreateRoom`,
`ChatViews.RoomList`, `ChatViews.MessageList` and
`UnreadCounts.IncrementUnreadCount` under "## Left out" state the
as-written consequences.

Calls into code that is not part of this model become parameters:

- the verdict of `full_clean` and of the accept and profile serializers
  (`clean`, `payloadValid`, `valid`);
- the access-token lookup (`resolve`);
- the clock (`now`);
- Redis faults (`health`).

## Model

| member | source | states |
|---|---|---|
| Query.Filter | src/chats/views.py:134 | keeps exactly the rows satisfying the predicate, each with its multiplicity |
| Query.Get | src/chats/consumers.py:87 | `Found` exactly when one position matches, `NotFound` iff none does, `Multiple` iff two positions match, even when they hold equal rows |
| Query.First | src/chats/views.py:55 | the lowest-position matching row; `None` iff nothing matches |
| Query.SortNewestFirst | src/chats/views.py:134 | a permutation of the input ordered by descending creation time |
| Query.Select | src/reviews/views/reviews_views.py:69 | the rows satisfying the filter, and only those, newest first |
| Text.NatToString | src/chats/consumers.py:78 | the decimal text of the id: digits only, no leading zero |
| Text.ParseNatToString | src/chats/consumers.py:78 | reading the decimal text back gives the number |
| Text.NatToStringInjective | src/chats/consumers.py:78 | distinct ids have distinct decimal texts |
| Text.Lower | src/users/serializers/user_serializer.py:44 | lower-cases ASCII letters position by position and keeps the length |
| Pagination.PageSize | src/chats/views.py:116-119 | the requested page size when it is positive and within the maximum; the maximum above it; the default otherwise |
| Pagination.MessagePageSize | src/chats/views.py:116-119 | default 20, capped at 100 |
| Pagination.NumPages | src/reviews/utils.py:4-5 | at least one page, and just enough pages to hold every item |
| Pagination.Page | src/reviews/utils.py:4-5 | a page exists iff its number is in range; it holds at most `size` consecutive items from offset `(number-1)*size` |
| Pagination.ItemOnPage | src/reviews/utils.py:4-5 | every item appears on page `k/size+1` at position `k%size` |
| Pagination.PageOfNewestFirst | src/chats/views.py:116-119 | a page of a newest-first list is newest first and holds only items of the list |
| Accounts.ById | src/users/views/user_view.py:57 | the row with that primary key; `None` iff there is none |
| Accounts.ByNickname | src/chats/views.py:49-52 | the unique row with that nickname, `NotFound` iff nobody has it |
| UnreadCounts.RedisIncr | src/chats/services.py:64 | `INCR` adds one to a present key and sets an absent key to 1 |
| UnreadCounts.Evict | src/chats/services.py:40 | expiry removes one cached key and changes nothing else |
| UnreadCounts.GetUnreadCount | src/chats/services.py:27-50 | a cache hit answers from the cache; a miss answers the durable count and caches it; a missing membership reads 0; a Redis read error, or a write error on a miss of an existing membership, gives no answer and changes nothing |
| UnreadCounts.IncrementUnreadCount | src/chats/services.py:53-71 | the durable counter of an existing membership goes up by one; the cache gets `INCR` when Redis works; a missing membership changes nothing |
| UnreadCounts.ResetUnreadCount | src/chats/services.py:73-92 | the durable counter and, when Redis works, the cached counter become 0 |
| UnreadCounts.GetAnswersDurable | src/chats/services.py:27-50 | while the cache agrees with the rows, a read answers the durable count and keeps them in agreement |
| UnreadCounts.ResetZeroesBoth | src/chats/services.py:73-92 | after a reset the next read answers 0 |
| UnreadCounts.IncrementAgreement | src/chats/services.py:53-71 | after an increment the cache equals the row iff it did before, or the key was absent and the row held 0 |
| UnreadCounts.NonNegativePreserved | src/chats/services.py:27-92 | no operation makes a counter negative |
| UnreadCounts.IncrementAfterExpiryIsStale | src/chats/services.py:61-64 | an increment after expiry caches 1 while the row holds 4, and the next read answers 1 |
| UnreadCounts.IncrementUnreadCountCoherent | src/chats/services.py:53-71 | the increment with the cache written to the new row value keeps cache and rows in agreement |
| UnreadCounts.CorrectedStaysCoherent | src/chats/services.py:27-92 | with the corrected increment, every operation keeps the cache coherent and reads answer the durable count |
| ChatModel.FreshRoomId | src/chats/views.py:65 | a new room id is larger than every existing one |
| ChatModel.Touch | src/chats/consumers.py:93-94 | only the saved room's `updated_at` changes |
| ChatModel.LatestMessage | src/chats/views.py:75 | the room's newest message; `None` iff the room has no message |
| ChatSession.GroupName | src/chats/consumers.py:75-78 | `chat_room_` followed by the room id's digits, which read back as the room id |
| ChatSession.GroupNameInjective | src/chats/consumers.py:75-78 | distinct rooms have distinct groups |
| ChatSession.GroupAdd | src/chats/consumers.py:23 | adds the channel to the group and changes no other group |
| ChatSession.GroupDiscard | src/chats/consumers.py:34 | removes the channel from the group and drops the group once empty; other groups unchanged |
| ChatSession.Connect | src/chats/consumers.py:13-29 | accepted and joined to its room's group iff the room exists, closed otherwise |
| ChatSession.Disconnect | src/chats/consumers.py:31-37 | the channel leaves its room's group; other groups unchanged |
| ChatSession.ConnectDisconnectRoundTrip | src/chats/consumers.py:13-37 | connecting and then disconnecting restores the group table |
| ChatSession.SaveMessage | src/chats/consumers.py:80-94 | empty fields and a missing room are refused; otherwise it stores the message from the sender with that nickname and touches the room |
| ChatSession.Receive | src/chats/consumers.py:39-62 | missing fields give an error frame; a saved message is broadcast to the room's group; a failed save gives its error frame and stores nothing |
| ChatSession.ChatMessage | src/chats/consumers.py:64-73 | the event's message and nickname as a frame, or the delivery error when a key is missing |
| ChatSession.Deliver | src/chats/consumers.py:56-58 | every channel in the group, and only those, receives the event's frame |
| ChatSession.ReceiveReachesRoom | src/chats/consumers.py:39-73 | a broadcast message reaches every channel in the room's group and is stored once |
| ChatViews.AdditionalContext | src/chats/views.py:74-84 | the latest message and its time come from the room's newest message, and are absent together iff the room has none; the other user's id and nickname are carried as given |
| ChatViews.SharedRoom | src/chats/views.py:54-55 | the first room, in key order, that both users belong to; `None` iff there is none |
| ChatViews.CreateRoom | src/chats/views.py:28-72 | a missing or unknown nickname is a validation error and an ambiguous one a server error, with nothing written; the first shared room is reused with one greeting `안녕하세요 <nickname>입니다` (200); otherwise, for two distinct users, one new room with both members and one greeting `반갑습니다 <nickname>입니다` (201); for oneself, the room and one membership are left behind and the answer is a server error; a success's body is `AdditionalContext` of the store after the greeting: the room's newest message and its time, with the other user's id and nickname |
| ChatViews.CreateRoomAtomic | src/chats/views.py:28-72 | the same answers, with every failure leaving the store as it was |
| ChatViews.SelfChatLeavesLoneMember | src/chats/views.py:64-67 | a caller naming themself in an empty store gets a server error, a room with only themself as member, and 200 for that room on the next try |
| ChatViews.CreateRoomAtomicKeepsPaired | src/chats/views.py:28-72 | with the atomic view, every outcome keeps every room with exactly two distinct members |
| ChatViews.CreateRoomKeepsPaired | src/chats/views.py:28-72 | every successful create keeps every room with exactly two distinct members |
| ChatViews.AddRoomKeepsPaired | src/chats/views.py:64-67 | a fresh room with two distinct members keeps the store paired |
| ChatViews.OldRoomStaysPaired | src/chats/views.py:66-67 | adding another room's memberships leaves a room's pair intact |
| ChatViews.NewRoomPaired | src/chats/views.py:66-67 | the new room has exactly the two members added |
| ChatViews.Summarize | src/chats/views.py:96-104 | a room-list row describes its own room |
| ChatViews.SummaryMeaning | src/chats/views.py:93-104 | a row's latest message is the text and time of a message of the room with no later one, absent iff the room has none, and its other user is a member other than the caller |
| ChatViews.MyRooms | src/chats/views.py:97 | exactly the rooms the caller belongs to |
| ChatViews.RoomList | src/chats/views.py:91-106 | the caller's room rows, each once, ordered by latest message time, newest first |
| ChatViews.RoomListContents | src/chats/views.py:91-106 | every listed row is one of the caller's rooms, and every room of the caller is listed |
| ChatViews.MessageList | src/chats/views.py:127-139 | room id 0 is a validation error; a room without messages is a 404; a room with messages succeeds with exactly its messages, each as often as stored, newest first |
| ChatViews.MessagePage | src/chats/views.py:116-139 | the list's errors pass through; otherwise the requested page of the newest-first messages at the requested size (default 20, at most 100), or the paginator's 404 for a page out of range |
| Wallets.ValidateRecharge | src/wallets/serializers/wallets_serializers.py:6-15 | accepts exactly the positive integers |
| Wallets.ValidateWithdraw | src/wallets/serializers/wallets_serializers.py:18-33 | accepts a positive amount not above the wallet's balance, with the source's message for each failure |
| Wallets.GetBalance | src/wallets/views/wallet_view.py:46-53 | the caller's balance, or 404 without a wallet |
| Wallets.Recharge | src/wallets/views/wallet_view.py:81-99 | validation first, then the wallet lookup; success adds the amount and reports the new balance; a sum past the 32-bit column is a server error and changes nothing |
| Wallets.Withdraw | src/wallets/views/wallet_view.py:106-126 | wallet lookup first, then validation, whose failure is the serializer's 400 with nothing changed; success subtracts the amount; the view's own insufficient-funds branch never fires |
| Wallets.AdminRecharge | src/wallets/views/wallet_view.py:132-150 | an unknown user is refused; otherwise it acts as a recharge of that user's wallet |
| Wallets.NoOverdraftPreserved | src/wallets/serializers/wallets_serializers.py:30-31 | no wallet operation makes a non-negative balance negative |
| Wallets.FitsColumnPreserved | src/wallets/models/wallets_model.py:8 | no wallet operation stores a balance above the column's maximum |
| Wallets.RechargeThenWithdraw | src/wallets/views/wallet_view.py:81-126 | a recharge succeeds iff the new balance fits the column; withdrawing the same amount then restores the ledger |
| Wallets.WithdrawAll | src/wallets/views/wallet_view.py:106-126 | withdrawing the whole balance succeeds and leaves 0 |
| Mates.SetMate | src/mates/managers.py:16-18 | only the named user's `is_mate` becomes true |
| Mates.CreateMateGameInfo | src/mates/managers.py:7-20 | succeeds iff the row cleans and the user exists; it appends the entry and marks that user a mate, nothing else |
| Mates.LookupMateGameInfo | src/mates/managers.py:22-26 | the entry for that mate and game when exactly one position holds it; `Multiple` iff two do, which makes `.get` raise; `NotFound` iff none does |
| Mates.CreatedInfoIsFound | src/mates/managers.py:7-26 | a registered game can be looked up afterwards, and its user is a mate |
| GameRequests.FreshRequestId | src/game_requests/managers.py:13 | a new request id differs from all existing ones |
| GameRequests.CreateRequest | src/game_requests/managers.py:5-15 | nothing is stored unless the row cleans; a stored request is pending, unreviewed and carries the order |
| GameRequests.Accept | src/game_requests/managers.py:17-21 | sets `status` and nothing else |
| GameRequests.Reject | src/game_requests/managers.py:23-27 | clears `status` and nothing else |
| GameRequests.AcceptIdempotent | src/game_requests/managers.py:17-27 | accepting twice is accepting once, and rejecting a pending request changes nothing |
| GameRequests.Save | src/game_requests/managers.py:19 | only the row with the saved id changes |
| GameRequests.MateUser | src/game_requests/views/game_request_view.py:24 | the user with that id who is a mate; `None` iff there is none |
| GameRequests.CreateView | src/game_requests/views/game_request_view.py:22-46 | 404 for a non-mate, 400 for oneself, 400 without the game, 400 for an invalid payload, in that order; then a failed `full_clean` is a server error, and otherwise one request under a fresh key is stored (201), from the caller to the mate, carrying the payload's game, price and amount and the request time, pending and unreviewed |
| GameRequests.CreatedRequestIsPending | src/game_requests/views/game_request_view.py:22-114 | a created request keeps keys unique, is listed for its mate and its orderer, and the mate can accept it |
| GameRequests.AppendFresh | src/game_requests/managers.py:5-15 | appending a request under a fresh key keeps keys unique and the key finds it |
| GameRequests.RequestById | src/game_requests/views/game_request_view.py:89-93 | the request with that id; `None` iff there is none |
| GameRequests.AcceptView | src/game_requests/views/game_request_view.py:86-114 | 404 for an unknown request, 400 for another mate's request or an accepted one, 400 for an invalid payload; then accept or reject, and no response (a server error) without `is_accept`; every refusal changes nothing |
| GameRequests.RejectLeavesTable | src/game_requests/views/game_request_view.py:98-110 | a reject reaches only pending requests and so changes no row |
| GameRequests.Ordered | src/game_requests/views/game_request_view.py:56 | exactly the caller's own requests, each as often as stored, newest first |
| GameRequests.Received | src/game_requests/views/game_request_view.py:73 | exactly the requests made to the mate, each as often as stored, newest first |
| Reviews.ValidateRating | src/reviews/serializers/serializers.py:53-56 | accepts exactly the ratings from 1.0 to 5.0, both inclusive |
| Reviews.ValidateReview | src/reviews/serializers/serializers.py:34-51 | valid iff the caller owns the request, it is completed and not yet reviewed; the first failing check decides the message |
| Reviews.AuthorId | src/reviews/serializers/serializers.py:17-18 | the user who ordered the reviewed request; `None` iff the review names no existing request |
| Reviews.CreateReview | src/reviews/views/reviews_views.py:36-61 | an unknown request is a 400; the rating is checked before the object rules; success stores the review and marks the request reviewed, failure changes nothing |
| Reviews.ReviewOnce | src/reviews/views/reviews_views.py:52-57 | after one successful review the next attempt is refused as already reviewed |
| Reviews.AllReviews | src/reviews/views/reviews_views.py:21-22 | every review, as often as stored, newest first |
| Reviews.ReviewList | src/reviews/views/reviews_views.py:17-30 | page `n` holds the newest-first reviews from position `10(n-1)`, at most ten and newest first; an out-of-range page is the fixed 400 |
| Reviews.ReviewListCovers | src/reviews/views/reviews_views.py:17-30 | every review appears in the list, on the page of its newest-first position |
| Reviews.RequestReviews | src/reviews/views/reviews_views.py:68-76 | exactly the reviews of that request, each as often as stored, newest first |
| Reviews.UserReviews | src/reviews/views/reviews_views.py:97-106 | exactly the reviews whose request the user ordered, each as often as stored, newest first |
| Reviews.UserGameReviews | src/reviews/views/reviews_views.py:83-90 | exactly the reviews of the user's requests for that game, each as often as stored, newest first |
| Reviews.GameOf | src/reviews/views/reviews_views.py:84 | the game of the reviewed request; `None` iff the review names no existing request |
| Reviews.ReviewOfRequest | src/reviews/serializers/serializers.py:17-18 | with unique request keys, a review's author and game are the user and game of the request it names |
| Reviews.ListPage | src/reviews/views/reviews_views.py:71-76 | a page of at most ten reviews, or the paginator's 404 when the page is out of range |
| Reviews.ListPageCovers | src/reviews/utils.py:4-5 | every review of a list appears on the page its position puts it on |
| OnlineStatus.StatusKey | src/users/consumers.py:47 | `user:`, the id's text, `:is_online` |
| OnlineStatus.StatusKeyInjective | src/users/consumers.py:47 | distinct users, and the anonymous user, have distinct keys |
| OnlineStatus.StatusText | src/users/consumers.py:47 | the written text reads back as the written flag |
| OnlineStatus.ReadFlag | src/users/serializers/user_serializer.py:36-44 | true iff the value is present and spells "true" in any letter case; absent or empty is false |
| OnlineStatus.IsOnline | src/users/serializers/user_serializer.py:82-90 | a user with no flag is offline; a written `True` reads online, a written `False` offline |
| OnlineStatus.UpdateUserStatus | src/users/consumers.py:43-47 | sets that user's flag to the status and leaves every other key alone |
| OnlineStatus.TokenFromQuery | src/users/consumers.py:18 | the suffix after the last `token=`, which contains no further marker, or the whole query when there is none |
| OnlineStatus.TokenRoundTrip | src/users/consumers.py:18 | a query ending in `token=` and a token free of the marker yields that token |
| OnlineStatus.StatusConnect | src/users/consumers.py:17-31 | an authenticated user is marked online and accepted; an anonymous user is closed, written under the `None` key and accepted; an auth failure closes and raises without writing |
| OnlineStatus.StatusDisconnect | src/users/consumers.py:33-37 | only an authenticated user is marked offline; the socket always closes |
| OnlineStatus.ConnectDisconnectFlag | src/users/consumers.py:17-37 | a connected user reads online, and offline after disconnecting |
| OnlineStatus.AnonymousTouchesNoUser | src/users/consumers.py:23-29 | an anonymous connection changes no registered user's flag |
| Profiles.ProfileGet | src/users/views/user_view.py:55-67 | 404 iff the id is unknown, 200 otherwise; a mate gets the mate profile with their games, a plain user the plain one; both carry the online flag |
| Profiles.Apply | src/users/serializers/user_serializer.py:29-34 | writes the writable fields given and never id, email, social provider or `is_mate` |
| Profiles.SaveUser | src/users/views/user_view.py:220 | only the caller's row is replaced |
| Profiles.PatchMe | src/users/views/user_view.py:208-221 | a non-empty nickname held by another user is refused before validation; a valid patch saves the caller's row; any refusal changes nothing |
| Profiles.PatchTouchesOnlyCaller | src/users/views/user_view.py:208-221 | other users' rows and the caller's read-only fields are unchanged |
| Profiles.PatchKeepsNicknamesUnique | src/users/views/user_view.py:211-213 | nicknames stay unique after a patch whose nickname is absent or non-empty |
| Profiles.ConnectShowsOnline | src/users/consumers.py:17-37 | after an authenticated status connection the user's profile reads online, and offline after the disconnect |
| Profiles.PatchThenGet | src/users/views/user_view.py:55-67 | after a successful patch the caller's profile shows the patched row |

## Left out

- The async transport (channel layer and websocket frames) is not modelled.
  Handlers run one at a time, and `print`/`logger` calls are dropped.
- Concurrency is not modelled. `F()` updates, `refresh_from_db` and races
  between handlers become sequential reads and writes.
- The Redis TTL of 300 seconds is not timed. Expiry is the `Evict`
  operation, applicable at any moment.
- The creation of the Redis client at import time is not modelled. Its
  failure is a cache of `None`.
- Exceptions the handlers do not anticipate are not modelled: database
  outages, Redis returning non-integers, invalid UTF-8. The exceptions
  listed above are modelled.
- Token decoding (`UserService`, `get_user_from_token`) is not part of this
  model. Its outcome is the `resolve` parameter or the caller's id.
- Field validation inside `full_clean`, `GameRequestCreateSerializer`,
  `GameRequestAcceptSerializer` and `UserProfileSerializer` is not part of
  this model. Each verdict is a boolean parameter. Their error bodies are
  fixed placeholder strings.
- `get_game_request_total_count` is not part of this model. A mate profile
  does not carry `total_request_count`.
- Profile images, serializer field formatting, response envelopes (`count`,
  `next`, `previous`) and the chat serializers are not modelled. Rows carry
  ids and values only.
- Payments, game listings and the mate listing endpoints are not modelled.
  They are not part of this core.
- Profiles.PatchKeepsNicknamesUnique: assumes the payload's nickname is
  absent or non-empty. A blank nickname skips the view's check and is left
  to the serializer's verdict, which is not modelled.
- ChatViews.Summarize: its contract states only the row's room id. The
  meaning of the other fields is stated by `ChatViews.SummaryMeaning`.
- ChatViews.RoomList: which other member a row shows is chosen by
  primary-key order. The database's subquery order is unspecified.
- Reviews.ReviewList: a non-numeric `page` query parameter is not
  modelled. Pages are integers.
- ChatViews.MessagePage: a non-numeric `page` query parameter, which the
  paginator answers with the 404 "Invalid page.", and `page=last` are not
  modelled. Pages are integers.
- ChatViews.CreateRoom: assumes the evidently intended schema, in which a
  message has one text field. As written, `Message` names that field
  `text` (src/chats/models.py:23), as the consumer's save does
  (src/chats/consumers.py:90). The room view instead creates messages with
  `message=` (src/chats/views.py:58, :68), which raises `TypeError`, and
  reads `.values("message")` (src/chats/views.py:75), which raises
  `FieldError`. So in the code as written every 200 and 201 answer of the
  model is a server error. For two distinct users with no shared room,
  the room and both memberships stay behind.
- ChatViews.RoomList: assumes the same schema. As written, the annotation
  reads `.values("message")` (src/chats/views.py:99), which raises
  `FieldError`, so the room list is a server error.
- ChatViews.MessageList: assumes the same schema. As written, the message
  serializer lists a `message` field (src/chats/serializers.py:13) that the
  model lacks, so a non-empty list fails when serialized and is a server
  error. The 400 and 404 answers are unaffected. `ChatViews.MessagePage`
  inherits this.
- UnreadCounts.IncrementUnreadCount: assumes the evidently intended schema,
  in which each membership carries an unread counter. As written,
  `ChatRoomUser` declares no `unread_count` (src/chats/models.py:12-17).
  The `update(unread_count=...)` (src/chats/services.py:55) then raises
  `FieldError`, the handler's catch-all logs it, and nothing changes. A
  read that misses the cache fails on the missing attribute and answers 0
  (src/chats/services.py:37, :48-50). A reset saves the row without a
  counter and sets only the cached value to 0 (src/chats/services.py:78-84).
- Reviews.ReviewList: the POST that `ReviewListView` inherits from
  `ListCreateAPIView` is not modelled. It would save a review from the
  writable fields alone (rating, content, creation time), skipping every
  check the review create view makes. Whether that save succeeds depends
  on whether a review's request link may be null, and src/reviews/models
  is not part of this model.
- ChatViews.RoomList: rows of rooms without any message sort after all
  others. This is the model's choice of database: SQLite and MySQL put
  NULLs last in a descending order, PostgreSQL puts them first. Rooms
  created by the view always have a greeting, so such rows arise only from
  other writers.
- Wallets.Recharge: the `coin` column is taken to be a 32-bit signed
  integer, as on PostgreSQL and MySQL. On SQLite the column is 64-bit and
  the bound would be larger.
- GameRequests.Ordered: returns the whole newest-first list.
  `GameRequestPagination` (src/game_requests/utils.py) is not part of this
  model; any page of the list is the split `Pagination.Page` states.
- GameRequests.Received: returns the whole newest-first list, as for
  `GameRequests.Ordered`.
- The review rating is an exact real number. The review model's column
  type (src/reviews/models is not part of this model) and any
  floating-point rounding of the rating are not modelled.

## Findings

| source | as written | input that shows it | evidently intended | confidence | as-written member | corrected member |
|---|---|---|---|---|---|---|
| src/chats/services.py:61-64 | after the durable increment, the cache gets `INCR`; on a key that has expired, `INCR` creates it at 1 with no expiry | membership row at 3, cached 3, the cache entry expires, one message arrives: the row is 4, the cache is 1, and every later read answers 1 | the cached counter mirrors the durable counter | medium, not executed | UnreadCounts.IncrementAfterExpiryIsStale | UnreadCounts.IncrementUnreadCountCoherent |
| src/chats/views.py:64-67 | the room and the caller's membership are saved one by one; for a caller naming themself, the second membership breaks the unique (chatroom, user) pair after those rows are written | a caller with no room posts their own nickname: the answer is a server error, a room with the caller as its only member remains, and the same request then answers 200 with that room | a failed create leaves no room behind, so every room has exactly two members | low, not executed; it assumes requests are not wrapped in a transaction | ChatViews.SelfChatLeavesLoneMember | ChatViews.CreateRoomAtomic |

=== FILE: accounts.dfy ===
/** The user table the handlers read: one row per account, in primary-key order. */
module Accounts {
  import opened Wrappers
  import Query

  type UserId = nat

  /** A `User` row: the fields the profile serializers expose. */
  datatype User = User(
    id: UserId,
    nickname: string,
    email: string,
    socialProvider: string,
    isMate: bool,
    gender: Option<string>,
    profileImage: Option<string>,
    birthday: Option<string>,
    description: Option<string>)

  /** Primary keys are unique. */
  ghost predicate UniqueIds(users: seq<User>) {
    forall i, j :: 0 <= i < j < |users| ==> users[i].id != users[j].id
  }

  /** `User.objects.get(id=...)`: the row with that primary key. */
  function ById(users: seq<User>, id: UserId): (r: Option<User>)
    ensures r.Some? ==> r.value in users && r.value.id == id
    ensures r.None? <==> forall u :: u in users ==> u.id != id
  {
    Query.First(users, (u: User) => u.id == id)
  }

  /** `User.objects.get(nickname=...)`: the one row with that nickname,
      `DoesNotExist` or `MultipleObjectsReturned`. */
  function ByNickname(users: seq<User>, nickname: string): (r: Lookup<User>)
    ensures r.Found? ==> r.value in users && r.value.nickname == nickname
    ensures r.Found? ==> forall u :: u in users && u.nickname == nickname ==> u == r.value
    ensures r.NotFound? <==> forall u :: u in users ==> u.nickname != nickname
  {
    Query.Get(users, (u: User) => u.nickname == nickname)
  }
}

=== FILE: chat_model.dfy ===
/** The chat tables (chats/models.py): rooms, memberships carrying the
    unread counter, and messages. */
module ChatModel {
  import opened Wrappers
  import opened Accounts
  import Query

  type RoomId = nat

  datatype ChatRoom = ChatRoom(id: RoomId, createdAt: nat, updatedAt: nat)

  /** A message row; `createdAt` is the `auto_now_add` timestamp. */
  datatype Message = Message(room: RoomId, sender: UserId, text: string, createdAt: nat)

  /** `rooms` in primary-key order; `members` maps each (room, user)
      membership to its `unread_count`; `messages` in insertion order. */
  datatype ChatDb = ChatDb(
    rooms: seq<ChatRoom>,
    members: map<(RoomId, UserId), int>,
    messages: seq<Message>,
    users: seq<User>)

  /** `ChatRoom.objects.filter(id=...).exists()`. */
  predicate RoomExists(rooms: seq<ChatRoom>, id: RoomId) {
    exists r | r in rooms :: r.id == id
  }

  /** A primary key larger than every existing room's. */
  function FreshRoomId(rooms: seq<ChatRoom>): (id: RoomId)
    ensures forall r :: r in rooms ==> r.id < id
    ensures !RoomExists(rooms, id)
  {
    if |rooms| == 0 then 1
    else
      var rest := FreshRoomId(rooms[1..]);
      assert forall r :: r in rooms ==> r == rooms[0] || r in rooms[1..];
      if rooms[0].id < rest then rest else rooms[0].id + 1
  }

  /** Sets `updated_at` of the room with primary key `id`. */
  function Touch(rooms: seq<ChatRoom>, id: RoomId, now: nat): (r: seq<ChatRoom>)
    ensures |r| == |rooms|
    ensures forall i :: 0 <= i < |r| ==> r[i].id == rooms[i].id && r[i].createdAt == rooms[i].createdAt
    ensures forall i :: 0 <= i < |r| ==> r[i].updatedAt == (if rooms[i].id == id then now else rooms[i].updatedAt)
  {
    seq(|rooms|, i requires 0 <= i < |rooms| =>
      if rooms[i].id == id then rooms[i].(updatedAt := now) else rooms[i])
  }

  /** The newest message of a room, as `filter(room=...).order_by("-created_at").first()`;
      among messages with the same timestamp any one may be chosen. */
  function LatestMessage(messages: seq<Message>, room: RoomId): (r: Option<Message>)
    ensures r.None? <==> forall m :: m in messages ==> m.room != room
    ensures r.Some? ==> r.value in messages && r.value.room == room
    ensures r.Some? ==> forall m :: m in messages && m.room == room ==> m.createdAt <= r.value.createdAt
  {
    if |messages| == 0 then None
    else
      var last := messages[|messages| - 1];
      var rest := LatestMessage(messages[..|messages| - 1], room);
      assert forall m :: m in messages ==> m == last || m in messages[..|messages| - 1];
      if last.room != room then rest
      else if rest.Some? && rest.value.createdAt > last.createdAt then rest
      else Some(last)
  }

  /** Every membership row belongs to an existing room. */
  ghost predicate MembersInRooms(db: ChatDb) {
    forall k :: k in db.members ==> RoomExists(db.rooms, k.0)
  }

  /** Room `rid` has exactly the two distinct members `a` and `b`. */
  ghost predicate PairedWith(members: map<(RoomId, UserId), int>, rid: RoomId, a: UserId, b: UserId) {
    && a != b && (rid, a) in members && (rid, b) in members
    && forall u: UserId {:trigger (rid, u) in members} :: (rid, u) in members ==> u == a || u == b
  }

  /** Room `rid` has exactly two distinct members. */
  ghost predicate RoomPaired(members: map<(RoomId, UserId), int>, rid: RoomId) {
    exists a: UserId, b: UserId :: PairedWith(members, rid, a, b)
  }

  /** The 1:1 room shape: every room has exactly two distinct members. */
  ghost predicate Paired(db: ChatDb) {
    && MembersInRooms(db)
    && forall r :: r in db.rooms ==> RoomPaired(db.members, r.id)
  }
}

=== FILE: chat_session.dfy ===
/** `ChatConsumer` (chats/consumers.py): one websocket session on a chat
    room. The channel layer's groups are a map from group name to the
    set of member channels; socket effects are returned as outcomes. */
module ChatSession {
  import opened Wrappers
  import opened Text
  import opened Accounts
  import opened ChatModel

  type Channel = string

  /** Group name to member channels. The channel layer drops a group
      once its last channel leaves, so no group is ever empty. */
  type Groups = map<string, set<Channel>>

  ghost predicate NoEmptyGroups(g: Groups) {
    forall name :: name in g ==> g[name] != {}
  }

  /** A session after `connect` has read `room_id` from the URL. */
  datatype Session = Session(channel: Channel, roomId: RoomId)

  datatype ConnectOutcome = Accepted | Closed

  /** The `{"type": "chat_message", ...}` event a group send carries;
      a field is `None` when the key is absent. */
  datatype ChatEvent = ChatEvent(message: Option<string>, senderNickname: Option<string>)

  /** A JSON frame sent to the client. */
  datatype Frame = MessageFrame(message: string, senderNickname: string) | ErrorFrame(error: string)

  /** What `receive_json` does: broadcast an event to a group, or reply to the sender only. */
  datatype ReceiveOutcome = Broadcast(group: string, event: ChatEvent) | Reply(frame: Frame)

  /** An inbound client frame; a key may be absent. */
  datatype Content = Content(message: Option<string>, senderNickname: Option<string>)

  const GroupPrefix: string := "chat_room_"
  const MissingFieldsError: string := "필수 정보가 누락되었습니다."
  const SaveFieldsError: string := "발신자 닉네임 및 메시지 텍스트가 필요합니다."
  const RoomDoesNotExist: string := "ChatRoom matching query does not exist."
  const UserDoesNotExist: string := "User matching query does not exist."
  /** Django's `MultipleObjectsReturned` text, shortened: the source's
      message goes on to give the number of rows found. */
  const UserNotUnique: string := "get() returned more than one User"
  const DeliveryError: string := "메시지 전송 실패"

  /** `get_group_name`: `f"chat_room_{room_id}"`. */
  function GroupName(roomId: RoomId): (name: string)
    ensures |name| > |GroupPrefix| && name[..|GroupPrefix|] == GroupPrefix
    ensures AllDigits(name[|GroupPrefix|..])
    ensures ParseDigits(name[|GroupPrefix|..]) == roomId
  {
    var name := GroupPrefix + NatToString(roomId);
    assert name[|GroupPrefix|..] == NatToString(roomId);
    ParseNatToString(roomId);
    name
  }

  /** Distinct rooms never share a broadcast group. */
  lemma GroupNameInjective(a: RoomId, b: RoomId)
    ensures GroupName(a) == GroupName(b) ==> a == b
  {
    PrefixCancel(GroupPrefix, NatToString(a), NatToString(b));
    NatToStringInjective(a, b);
  }

  /** `group_add`. */
  function GroupAdd(g: Groups, name: string, ch: Channel): (g': Groups)
    ensures name in g' && ch in g'[name]
    ensures g'.Keys == g.Keys + {name}
    ensures forall n :: n in g && n != name ==> g'[n] == g[n]
    ensures name in g ==> g'[name] == g[name] + {ch}
    ensures name !in g ==> g'[name] == {ch}
  {
    g[name := if name in g then g[name] + {ch} else {ch}]
  }

  /** `group_discard`: removes the channel, and the group once it is empty. */
  function GroupDiscard(g: Groups, name: string, ch: Channel): (g': Groups)
    ensures name in g' ==> ch !in g'[name] && name in g && g'[name] == g[name] - {ch}
    ensures name in g && g[name] - {ch} != {} ==> name in g'
    ensures name in g && g[name] - {ch} == {} ==> name !in g'
    ensures forall n :: n != name ==> (n in g' <==> n in g) && (n in g ==> g'[n] == g[n])
  {
    if name !in g then g
    else if g[name] - {ch} == {} then g - {name}
    else g[name := g[name] - {ch}]
  }

  /** `connect`: a missing room closes the socket and joins nothing; an
      existing room joins the room's group and then accepts. */
  function Connect(db: ChatDb, groups: Groups, channel: Channel, roomId: RoomId): (r: (Groups, Session, ConnectOutcome))
    ensures r.1 == Session(channel, roomId)
    ensures !RoomExists(db.rooms, roomId) ==> r.0 == groups && r.2 == Closed
    ensures RoomExists(db.rooms, roomId) ==> r.2 == Accepted
    ensures r.2 == Accepted ==> GroupName(roomId) in r.0 && channel in r.0[GroupName(roomId)]
    ensures forall n :: n != GroupName(roomId) ==> (n in r.0 <==> n in groups) && (n in groups ==> r.0[n] == groups[n])
  {
    var s := Session(channel, roomId);
    if !RoomExists(db.rooms, roomId) then (groups, s, Closed)
    else (GroupAdd(groups, GroupName(roomId), channel), s, Accepted)
  }

  /** `disconnect`: leaves the room's group; nothing to report. */
  function Disconnect(groups: Groups, s: Session): (g': Groups)
    ensures GroupName(s.roomId) in g' ==> s.channel !in g'[GroupName(s.roomId)]
    ensures forall n :: n != GroupName(s.roomId) ==> (n in g' <==> n in groups) && (n in groups ==> g'[n] == groups[n])
  {
    GroupDiscard(groups, GroupName(s.roomId), s.channel)
  }

  /** Joining and then leaving a room restores the groups exactly, for a
      channel that was not already in the room's group. */
  lemma ConnectDisconnectRoundTrip(db: ChatDb, groups: Groups, channel: Channel, roomId: RoomId)
    requires NoEmptyGroups(groups)
    requires GroupName(roomId) in groups ==> channel !in groups[GroupName(roomId)]
    ensures var (g1, s, _) := Connect(db, groups, channel, roomId);
            Disconnect(g1, s) == groups && NoEmptyGroups(g1)
  {
    var name := GroupName(roomId);
    var (g1, s, _) := Connect(db, groups, channel, roomId);
    var g2 := Disconnect(g1, s);
    if RoomExists(db.rooms, roomId) {
      if name in groups {
        assert g1[name] - {channel} == groups[name];
        assert g2 == g1[name := groups[name]];
      } else {
        assert g1[name] - {channel} == {};
        assert g2 == g1 - {name};
      }
    } else {
      if name in groups {
        assert groups[name] - {channel} == groups[name];
      }
    }
    assert g2.Keys == groups.Keys;
  }

  /** `save_message`: stores one message from the user with that nickname
      and touches the room's `updated_at`. */
  function SaveMessage(db: ChatDb, roomId: RoomId, senderNickname: string, text: string, now: nat): (r: Result<ChatDb, string>)
    ensures (senderNickname == "" || text == "") ==> r == Failure(SaveFieldsError)
    ensures senderNickname != "" && text != "" && !RoomExists(db.rooms, roomId) ==> r == Failure(RoomDoesNotExist)
    ensures r.Success? ==>
              && RoomExists(db.rooms, roomId)
              && ByNickname(db.users, senderNickname).Found?
              && r.value.messages == db.messages + [Message(roomId, ByNickname(db.users, senderNickname).value.id, text, now)]
              && r.value.members == db.members && r.value.users == db.users
              && r.value.rooms == Touch(db.rooms, roomId, now)
    ensures senderNickname != "" && text != "" && RoomExists(db.rooms, roomId) ==>
              (r.Success? <==> ByNickname(db.users, senderNickname).Found?)
  {
    if senderNickname == "" || text == "" then Failure(SaveFieldsError)
    else if !RoomExists(db.rooms, roomId) then Failure(RoomDoesNotExist)
    else match ByNickname(db.users, senderNickname)
      case NotFound => Failure(UserDoesNotExist)
      case Multiple => Failure(UserNotUnique)
      case Found(u) =>
        Success(db.(messages := db.messages + [Message(roomId, u.id, text, now)],
                    rooms := Touch(db.rooms, roomId, now)))
  }

  /** Python truthiness of an optional string field. */
  predicate Present(v: Option<string>) {
    v.Some? && v.value != ""
  }

  /** `receive_json`: a frame missing its text or sender gets an error
      reply; otherwise the message is stored first and then broadcast,
      unchanged, to the room's group. A failed store is also replied to. */
  function Receive(db: ChatDb, s: Session, content: Content, now: nat): (r: (ChatDb, ReceiveOutcome))
    ensures !Present(content.message) || !Present(content.senderNickname) ==>
              r == (db, Reply(ErrorFrame(MissingFieldsError)))
    ensures r.1.Reply? ==> r.0 == db && r.1.frame.ErrorFrame?
    ensures r.1.Broadcast? ==>
              && r.1.group == GroupName(s.roomId)
              && r.1.event == ChatEvent(content.message, content.senderNickname)
              && Present(content.message) && Present(content.senderNickname)
              && SaveMessage(db, s.roomId, content.senderNickname.value, content.message.value, now) == Success(r.0)
    ensures Present(content.message) && Present(content.senderNickname) ==>
              match SaveMessage(db, s.roomId, content.senderNickname.value, content.message.value, now)
              case Success(db') => r.1.Broadcast? && r.0 == db'
              case Failure(e) => r == (db, Reply(ErrorFrame(e)))
  {
    if !Present(content.message) || !Present(content.senderNickname) then
      (db, Reply(ErrorFrame(MissingFieldsError)))
    else
      var text, sender := content.message.value, content.senderNickname.value;
      match SaveMessage(db, s.roomId, sender, text, now)
      case Failure(e) => (db, Reply(ErrorFrame(e)))
      case Success(db') => (db', Broadcast(GroupName(s.roomId), ChatEvent(content.message, content.senderNickname)))
  }

  /** `chat_message`: forwards the event's text and sender to the client,
      or an error frame when either key is missing. */
  function ChatMessage(event: ChatEvent): (f: Frame)
    ensures event.message.Some? && event.senderNickname.Some? ==>
              f == MessageFrame(event.message.value, event.senderNickname.value)
    ensures event.message.None? || event.senderNickname.None? ==> f == ErrorFrame(DeliveryError)
  {
    match (event.message, event.senderNickname)
    case (Some(m), Some(n)) => MessageFrame(m, n)
    case _ => ErrorFrame(DeliveryError)
  }

  /** `group_send`: every channel of the group runs `chat_message` on the event. */
  function Deliver(groups: Groups, name: string, event: ChatEvent): (d: map<Channel, Frame>)
    ensures name !in groups ==> d == map[]
    ensures name in groups ==> d.Keys == groups[name]
    ensures forall ch :: ch in d ==> d[ch] == ChatMessage(event)
  {
    if name in groups then map ch | ch in groups[name] :: ChatMessage(event) else map[]
  }

  /** A valid message reaches every session connected to the room with
      the text and sender it was sent with, and is stored exactly once. */
  lemma ReceiveReachesRoom(db: ChatDb, groups: Groups, s: Session, content: Content, now: nat, other: Channel)
    requires Receive(db, s, content, now).1.Broadcast?
    requires GroupName(s.roomId) in groups && other in groups[GroupName(s.roomId)]
    ensures var (db', out) := Receive(db, s, content, now);
            var d := Deliver(groups, out.group, out.event);
            && other in d
            && d[other] == MessageFrame(content.message.value, content.senderNickname.value)
            && |db'.messages| == |db.messages| + 1
            && db'.messages[|db.messages|].text == content.message.value
  {
  }
}

=== FILE: chat_views.dfy ===
/** The chat REST views (chats/views.py): get-or-create of a 1:1 room,
    the caller's room list, and a room's message list. The caller is the
    user the bearer token resolved to. */
module ChatViews {
  import opened Wrappers
  import opened Accounts
  import opened ChatModel
  import Query
  import Pagination

  datatype ViewError =
    | ValidationError(message: string)   // 400
    | Http404(message: string)           // 404
    | ServerError                        // an uncaught exception

  /** The room payload plus `get_additional_context`. */
  datatype RoomResponse = RoomResponse(
    status: int,
    roomId: RoomId,
    latestMessage: Option<string>,
    latestMessageTime: Option<nat>,
    otherUserId: UserId,
    otherUserNickname: string)

  const MissingNicknameError: string := "other_user_nickname 파라미터가 필요합니다."
  const UnknownNicknameError: string := "해당 닉네임을 가진 사용자가 존재하지 않습니다."
  const MissingRoomIdError: string := "room_id 파라미터가 필요합니다."
  const NoMessagesError: string := "해당 room_id로 메시지를 찾을 수 없습니다."
  /** Django REST framework's 404 text for a page number out of range. */
  const InvalidPageError: string := "Invalid page."

  /** The greeting posted into an existing room, in the other user's name. */
  function ExistingGreeting(nickname: string): string {
    "안녕하세요 " + nickname + "입니다"
  }

  /** The greeting posted into a new room, in the other user's name. */
  function NewGreeting(nickname: string): string {
    "반갑습니다 " + nickname + "입니다"
  }

  /** Both users are members of the room. */
  predicate Shares(db: ChatDb, room: ChatRoom, a: UserId, b: UserId) {
    (room.id, a) in db.members && (room.id, b) in db.members
  }

  /** `get_additional_context`: the newest message of the room and its time. */
  function AdditionalContext(db: ChatDb, room: RoomId, other: User, status: int): (r: RoomResponse)
    ensures r.roomId == room && r.status == status
    ensures r.otherUserId == other.id && r.otherUserNickname == other.nickname
    ensures r.latestMessage.None? <==> forall m :: m in db.messages ==> m.room != room
    ensures r.latestMessage.Some? <==> r.latestMessageTime.Some?
    ensures r.latestMessage.Some? ==>
              exists m :: m in db.messages && m.room == room && m.text == r.latestMessage.value
                          && m.createdAt == r.latestMessageTime.value
    ensures r.latestMessageTime.Some? ==>
              forall m :: m in db.messages && m.room == room ==> m.createdAt <= r.latestMessageTime.value
  {
    var latest := LatestMessage(db.messages, room);
    RoomResponse(status, room,
                 if latest.Some? then Some(latest.value.text) else None,
                 if latest.Some? then Some(latest.value.createdAt) else None,
                 other.id, other.nickname)
  }

  /** `get_existing_chatroom`: the first room, in primary-key order, that
      both users belong to. */
  function SharedRoom(db: ChatDb, a: UserId, b: UserId): (r: Option<ChatRoom>)
    ensures r.Some? ==> r.value in db.rooms && Shares(db, r.value, a, b)
    ensures r.None? <==> forall room :: room in db.rooms ==> !Shares(db, room, a, b)
    ensures r.Some? ==> exists i :: 0 <= i < |db.rooms| && db.rooms[i] == r.value
                                    && forall k :: 0 <= k < i ==> !Shares(db, db.rooms[k], a, b)
  {
    Query.First(db.rooms, (room: ChatRoom) => Shares(db, room, a, b))
  }

  /** `ChatRoomCreateView.create`: validate the other user's nickname, then
      reuse the first room both users belong to (200) or create a room with
      the two memberships (201); either way post one greeting. Each row is
      saved as it is created: when the caller names themself and shares no
      room with themself, the room and the first membership are saved
      before the second membership breaks the unique (chatroom, user) pair,
      and they stay behind. */
  function CreateRoom(db: ChatDb, caller: User, otherNickname: Option<string>, now: nat): (r: (ChatDb, Result<RoomResponse, ViewError>))
    ensures otherNickname.None? || otherNickname.value == "" ==> r == (db, Failure(ValidationError(MissingNicknameError)))
    ensures otherNickname.Some? && otherNickname.value != "" && ByNickname(db.users, otherNickname.value).NotFound? ==>
              r == (db, Failure(ValidationError(UnknownNicknameError)))
    ensures otherNickname.Some? && otherNickname.value != "" && ByNickname(db.users, otherNickname.value).Multiple? ==>
              r == (db, Failure(ServerError))
    // a known nickname: reuse the first shared room, else create one, else (self-chat) fail half-way
    ensures otherNickname.Some? && otherNickname.value != "" && ByNickname(db.users, otherNickname.value).Found? ==>
              var o := ByNickname(db.users, otherNickname.value).value;
              var shared := SharedRoom(db, caller.id, o.id);
              && (shared.Some? ==> r.1.Success? && r.1.value.status == 200 && r.1.value.roomId == shared.value.id)
              && (shared.None? && o.id != caller.id ==> r.1.Success? && r.1.value.status == 201)
              && (shared.None? && o.id == caller.id ==>
                    && r.1 == Failure(ServerError)
                    && |r.0.rooms| == |db.rooms| + 1 && r.0.rooms[..|db.rooms|] == db.rooms
                    && !RoomExists(db.rooms, r.0.rooms[|db.rooms|].id)
                    && r.0.members == db.members[(r.0.rooms[|db.rooms|].id, caller.id) := 0]
                    && r.0.messages == db.messages && r.0.users == db.users)
    // on success: exactly one greeting appended, from the other user, in the returned room
    ensures r.1.Success? ==>
              && otherNickname.Some? && ByNickname(db.users, otherNickname.value).Found?
              && var other := ByNickname(db.users, otherNickname.value).value;
                 var resp := r.1.value;
                 && r.0.users == db.users
                 && resp.otherUserId == other.id
                 && |r.0.messages| == |db.messages| + 1 && r.0.messages[..|db.messages|] == db.messages
                 && r.0.messages[|db.messages|].room == resp.roomId
                 && r.0.messages[|db.messages|].sender == other.id
                 && r.0.messages[|db.messages|].createdAt == now
                 && r.0.messages[|db.messages|].text ==
                      (if resp.status == 200 then ExistingGreeting(other.nickname) else NewGreeting(other.nickname))
                 && resp.latestMessageTime.Some? && resp.latestMessageTime.value >= now
                 && (resp.roomId, caller.id) in r.0.members && (resp.roomId, other.id) in r.0.members
    // the body is the room's context read back after the greeting was stored
    ensures r.1.Success? ==>
              r.1.value == AdditionalContext(r.0, r.1.value.roomId, ByNickname(db.users, otherNickname.value).value, r.1.value.status)
    // 200: an existing shared room, no new rows besides the greeting
    ensures r.1.Success? && r.1.value.status == 200 ==>
              && r.0.rooms == db.rooms && r.0.members == db.members
              && exists room :: room in db.rooms && room.id == r.1.value.roomId
                                && Shares(db, room, caller.id, r.1.value.otherUserId)
    // 201: no shared room existed; one fresh room and its two memberships
    ensures r.1.Success? && r.1.value.status == 201 ==>
              && caller.id != r.1.value.otherUserId
              && (forall room :: room in db.rooms ==> !Shares(db, room, caller.id, r.1.value.otherUserId))
              && !RoomExists(db.rooms, r.1.value.roomId)
              && r.0.rooms == db.rooms + [ChatRoom(r.1.value.roomId, now, now)]
              && r.0.members == db.members[(r.1.value.roomId, caller.id) := 0][(r.1.value.roomId, r.1.value.otherUserId) := 0]
    ensures r.1.Success? ==> r.1.value.status == 200 || r.1.value.status == 201
  {
    if otherNickname.None? || otherNickname.value == "" then (db, Failure(ValidationError(MissingNicknameError)))
    else match ByNickname(db.users, otherNickname.value)
      case NotFound => (db, Failure(ValidationError(UnknownNicknameError)))
      case Multiple => (db, Failure(ServerError))
      case Found(other) =>
        match SharedRoom(db, caller.id, other.id)
        case Some(room) =>
          var db' := db.(messages := db.messages + [Message(room.id, other.id, ExistingGreeting(other.nickname), now)]);
          (db', Success(AdditionalContext(db', room.id, other, 200)))
        case None =>
          var id := FreshRoomId(db.rooms);
          var withRoom := db.(rooms := db.rooms + [ChatRoom(id, now, now)],
                              members := db.members[(id, caller.id) := 0]);
          if caller.id == other.id then
            // the second membership row violates unique (chatroom, user)
            (withRoom, Failure(ServerError))
          else
            var db' := withRoom.(members := withRoom.members[(id, other.id) := 0],
                                 messages := db.messages + [Message(id, other.id, NewGreeting(other.nickname), now)]);
            (db', Success(AdditionalContext(db', id, other, 201)))
  }

  /** The create view run in one transaction: an exception rolls back every
      row the view wrote, so a failure leaves the store as it was. */
  function CreateRoomAtomic(db: ChatDb, caller: User, otherNickname: Option<string>, now: nat): (r: (ChatDb, Result<RoomResponse, ViewError>))
    ensures r.1 == CreateRoom(db, caller, otherNickname, now).1
    ensures r.1.Failure? ==> r.0 == db
    ensures r.1.Success? ==> r.0 == CreateRoom(db, caller, otherNickname, now).0
  {
    var (db', resp) := CreateRoom(db, caller, otherNickname, now);
    if resp.Failure? then (db, resp) else (db', resp)
  }

  /** Every successful create keeps every room with exactly two distinct
      members. */
  lemma CreateRoomKeepsPaired(db: ChatDb, caller: User, otherNickname: Option<string>, now: nat)
    requires Paired(db)
    ensures CreateRoom(db, caller, otherNickname, now).1.Success? ==> Paired(CreateRoom(db, caller, otherNickname, now).0)
  {
    var (db', resp) := CreateRoom(db, caller, otherNickname, now);
    if resp.Success? {
      if resp.value.status == 201 {
        AddRoomKeepsPaired(db, resp.value.roomId, caller.id, resp.value.otherUserId, now, db'.messages);
      } else {
        assert db'.rooms == db.rooms && db'.members == db.members;
      }
    }
  }

  /** A caller with no room who names themself: the view fails, yet leaves
      a room whose only member is the caller, and the next identical request
      answers 200 with that room. */
  lemma SelfChatLeavesLoneMember()
    ensures var u := User(1, "a", "a@x", "kakao", false, None, None, None, None);
            var db := ChatDb([], map[], [], [u]);
            var (db1, r1) := CreateRoom(db, u, Some("a"), 5);
            && Paired(db) && r1 == Failure(ServerError)
            && db1.rooms == [ChatRoom(1, 5, 5)] && db1.members == map[(1, 1) := 0]
            && !Paired(db1)
            && CreateRoom(db1, u, Some("a"), 6).1.Success?
            && CreateRoom(db1, u, Some("a"), 6).1.value.status == 200
  {
    var u := User(1, "a", "a@x", "kakao", false, None, None, None, None);
    var db := ChatDb([], map[], [], [u]);
    assert ByNickname(db.users, "a") == Found(u) by {
      assert db.users[0] == u;
    }
    var (db1, r1) := CreateRoom(db, u, Some("a"), 5);
    assert !RoomPaired(db1.members, 1) by {
      forall a: UserId, b: UserId ensures !PairedWith(db1.members, 1, a, b) {
        if (1, a) in db1.members && (1, b) in db1.members {
          assert a == 1 && b == 1;
        }
      }
    }
    assert db1.rooms[0] in db1.rooms;
    assert ByNickname(db1.users, "a") == Found(u) by {
      assert db1.users[0] == u;
    }
    assert Shares(db1, db1.rooms[0], 1, 1);
  }

  /** With the create view run atomically, every outcome keeps every room
      with exactly two distinct members. */
  lemma CreateRoomAtomicKeepsPaired(db: ChatDb, caller: User, otherNickname: Option<string>, now: nat)
    requires Paired(db)
    ensures Paired(CreateRoomAtomic(db, caller, otherNickname, now).0)
  {
    CreateRoomKeepsPaired(db, caller, otherNickname, now);
  }

  /** Adding a fresh room with two distinct members keeps every room paired. */
  lemma AddRoomKeepsPaired(db: ChatDb, id: RoomId, a: UserId, b: UserId, now: nat, messages: seq<Message>)
    requires Paired(db) && !RoomExists(db.rooms, id) && a != b
    ensures Paired(ChatDb(db.rooms + [ChatRoom(id, now, now)], db.members[(id, a) := 0][(id, b) := 0], messages, db.users))
  {
    var db' := ChatDb(db.rooms + [ChatRoom(id, now, now)], db.members[(id, a) := 0][(id, b) := 0], messages, db.users);
    assert forall k :: k in db.members ==> k.0 != id;
    forall k | k in db'.members
      ensures RoomExists(db'.rooms, k.0)
    {
      if k in db.members {
        var r0 :| r0 in db.rooms && r0.id == k.0;
        assert r0 in db'.rooms;
      } else {
        assert db'.rooms[|db.rooms|] in db'.rooms;
      }
    }
    forall r | r in db'.rooms
      ensures RoomPaired(db'.members, r.id)
    {
      if r in db.rooms {
        OldRoomStaysPaired(db.members, r.id, id, a, b);
      } else {
        assert r.id == id;
        NewRoomPaired(db.members, id, a, b);
      }
    }
  }

  /** A room other than `id` keeps its pair when `id`'s memberships are added. */
  lemma OldRoomStaysPaired(members: map<(RoomId, UserId), int>, rid: RoomId, id: RoomId, a: UserId, b: UserId)
    requires RoomPaired(members, rid) && rid != id
    ensures RoomPaired(members[(id, a) := 0][(id, b) := 0], rid)
  {
    var x: UserId, y: UserId :| PairedWith(members, rid, x, y);
    assert PairedWith(members[(id, a) := 0][(id, b) := 0], rid, x, y);
  }

  /** A room with no memberships gets exactly the pair added for it. */
  lemma NewRoomPaired(members: map<(RoomId, UserId), int>, id: RoomId, a: UserId, b: UserId)
    requires forall k :: k in members ==> k.0 != id
    requires a != b
    ensures RoomPaired(members[(id, a) := 0][(id, b) := 0], id)
  {
    assert PairedWith(members[(id, a) := 0][(id, b) := 0], id, a, b);
  }

  /** One row of the room list. */
  datatype RoomSummary = RoomSummary(
    roomId: RoomId,
    latestMessage: Option<string>,
    latestMessageTime: Option<nat>,
    otherUserId: Option<UserId>)

  /** The sort key of `order_by("-latest_message_time")`; rooms without
      messages sort after every room with one. */
  function TimeKey(s: RoomSummary): int {
    if s.latestMessageTime.Some? then s.latestMessageTime.value else -1
  }

  /** The annotated row for one room: the newest message and the other member. */
  function Summarize(db: ChatDb, caller: UserId, room: ChatRoom): (s: RoomSummary)
    ensures s.roomId == room.id
  {
    var latest := LatestMessage(db.messages, room.id);
    var other := Query.First(db.users, (u: User) => u.id != caller && (room.id, u.id) in db.members);
    RoomSummary(room.id,
                if latest.Some? then Some(latest.value.text) else None,
                if latest.Some? then Some(latest.value.createdAt) else None,
                if other.Some? then Some(other.value.id) else None)
  }

  /** A room's row carries the time of its newest message (none when the
      room has no messages) and, if any, a member other than the caller. */
  lemma SummaryMeaning(db: ChatDb, caller: UserId, room: ChatRoom)
    ensures var s := Summarize(db, caller, room);
            && (s.latestMessageTime.None? <==> forall m :: m in db.messages ==> m.room != room.id)
            && (s.latestMessageTime.Some? ==>
                  forall m :: m in db.messages && m.room == room.id ==> m.createdAt <= s.latestMessageTime.value)
            && (s.latestMessage.Some? <==> s.latestMessageTime.Some?)
            && (s.latestMessage.Some? ==>
                  exists m :: m in db.messages && m.room == room.id && m.text == s.latestMessage.value
                              && m.createdAt == s.latestMessageTime.value)
            && (s.otherUserId.Some? ==> s.otherUserId.value != caller && (room.id, s.otherUserId.value) in db.members)
  {
  }

  /** The annotated rows of a list of rooms, in the same order. */
  function Summaries(db: ChatDb, caller: UserId, rooms: seq<ChatRoom>): (r: seq<RoomSummary>)
    ensures |r| == |rooms|
    ensures forall i :: 0 <= i < |rooms| ==> r[i] == Summarize(db, caller, rooms[i])
  {
    if |rooms| == 0 then [] else [Summarize(db, caller, rooms[0])] + Summaries(db, caller, rooms[1..])
  }

  /** The caller's rooms, in primary-key order. */
  function MyRooms(db: ChatDb, caller: UserId): (mine: seq<ChatRoom>)
    ensures forall room :: room in mine <==> room in db.rooms && (room.id, caller) in db.members
  {
    Query.Filter(db.rooms, (room: ChatRoom) => (room.id, caller) in db.members)
  }

  /** `ChatRoomListView.get_queryset`: the caller's rooms, newest latest message first. */
  function RoomList(db: ChatDb, caller: UserId): (r: seq<RoomSummary>)
    ensures Query.NewestFirst(r, TimeKey)
    ensures multiset(r) == multiset(Summaries(db, caller, MyRooms(db, caller)))
  {
    Query.SortNewestFirst(Summaries(db, caller, MyRooms(db, caller)), TimeKey)
  }

  /** The room list holds a row for every room the caller belongs to and
      for no other room. */
  lemma RoomListContents(db: ChatDb, caller: UserId)
    ensures forall s :: s in RoomList(db, caller) ==>
              (s.roomId, caller) in db.members && RoomExists(db.rooms, s.roomId)
    ensures forall room :: room in db.rooms && (room.id, caller) in db.members ==>
              Summarize(db, caller, room) in RoomList(db, caller)
  {
    var rows := Summaries(db, caller, MyRooms(db, caller));
    RowsAreMine(db, caller);
    MineHaveRows(db, caller);
    Query.SameElements(rows, RoomList(db, caller));
  }

  lemma RowsAreMine(db: ChatDb, caller: UserId)
    ensures forall s :: s in Summaries(db, caller, MyRooms(db, caller)) ==>
              (s.roomId, caller) in db.members && RoomExists(db.rooms, s.roomId)
  {
    var mine := MyRooms(db, caller);
    var rows := Summaries(db, caller, mine);
    forall s | s in rows
      ensures (s.roomId, caller) in db.members && RoomExists(db.rooms, s.roomId)
    {
      var j :| 0 <= j < |rows| && rows[j] == s;
      assert mine[j] in mine;
    }
  }

  lemma MineHaveRows(db: ChatDb, caller: UserId)
    ensures forall room :: room in db.rooms && (room.id, caller) in db.members ==>
              Summarize(db, caller, room) in Summaries(db, caller, MyRooms(db, caller))
  {
    var mine := MyRooms(db, caller);
    var rows := Summaries(db, caller, mine);
    forall room | room in db.rooms && (room.id, caller) in db.members
      ensures Summarize(db, caller, room) in rows
    {
      var j :| 0 <= j < |mine| && mine[j] == room;
      assert rows[j] in rows;
    }
  }

  /** `MessageListView.get_queryset`: the room's messages, newest first;
      a room id of 0 is rejected as missing, and a room without messages is a 404.
      Membership of the caller is not checked. */
  function MessageList(db: ChatDb, roomId: RoomId): (r: Result<seq<Message>, ViewError>)
    ensures roomId == 0 ==> r == Failure(ValidationError(MissingRoomIdError))
    ensures roomId != 0 ==> (r == Failure(Http404(NoMessagesError)) <==> forall m :: m in db.messages ==> m.room != roomId)
    ensures roomId != 0 && (exists m :: m in db.messages && m.room == roomId) ==> r.Success?
    ensures r.Success? ==> forall m :: m in r.value <==> m in db.messages && m.room == roomId
    ensures r.Success? ==> forall m: Message | m.room == roomId :: multiset(r.value)[m] == multiset(db.messages)[m]
    ensures r.Success? ==> |r.value| > 0 && Query.NewestFirst(r.value, (m: Message) => m.createdAt)
    ensures r.Success? || r.error.ValidationError? || r.error.Http404?
  {
    if roomId == 0 then Failure(ValidationError(MissingRoomIdError))
    else
      var msgs := Query.Select(db.messages, (m: Message) => m.room == roomId, (m: Message) => m.createdAt);
      if |msgs| == 0 then Failure(Http404(NoMessagesError))
      else
        assert msgs[0] in msgs;
        Success(msgs)
  }

  /** `MessageListView.list`: the message list cut by `MessagePagination`.
      `page` is the page number and `requested` the `page_size` parameter;
      a page out of range is the paginator's 404. The page's positions in
      the list are those `Pagination.Page` states. */
  function MessagePage(db: ChatDb, roomId: RoomId, page: int, requested: Option<int>): (r: Result<seq<Message>, ViewError>)
    ensures MessageList(db, roomId).Failure? ==> r == MessageList(db, roomId)
    ensures MessageList(db, roomId).Success? ==>
              var all := MessageList(db, roomId).value;
              var size := Pagination.MessagePageSize(requested);
              && (r.Success? <==> 1 <= page <= Pagination.NumPages(|all|, size))
              && (r.Failure? ==> r.error == Http404(InvalidPageError))
              && (r.Success? ==> r.value == Pagination.Page(all, page, size).value && 0 < |r.value| <= size)
    ensures r.Success? ==> Query.NewestFirst(r.value, (m: Message) => m.createdAt)
    ensures r.Success? ==> forall m :: m in r.value ==> m in db.messages && m.room == roomId
  {
    var list := MessageList(db, roomId);
    if list.Failure? then list
    else
      var size := Pagination.MessagePageSize(requested);
      var p := Pagination.Page(list.value, page, size);
      if p.None? then Failure(Http404(InvalidPageError))
      else
        Pagination.PageOfNewestFirst(list.value, page, size, (m: Message) => m.createdAt);
        Success(p.value)
  }
}

=== FILE: game_requests.dfy ===
/** Game requests (game_requests/managers.py and
    game_requests/views/game_request_view.py): a user orders a session
    from a mate, and the mate accepts or rejects it. */
module GameRequests {
  import opened Wrappers
  import opened Accounts
  import opened Mates
  import Query

  /** A `GameRequest` row. `status` is true once accepted (false by
      default); `reviewStatus` is true once a review has been written. */
  datatype GameRequest = GameRequest(
    id: nat,
    userId: UserId,
    mateId: UserId,
    gameId: nat,
    price: int,
    amount: int,
    status: bool,
    reviewStatus: bool,
    createdAt: nat)

  /** The order payload after the create serializer has read it. */
  datatype Order = Order(gameId: nat, price: int, amount: int)

  datatype Response =
    | Created(message: string)        // 201
    | Done(message: string)           // 200
    | Missing(error: string)          // 404
    | BadRequest(error: string)       // 400
    | ServerError                     // an uncaught exception, or no response

  const ReceivedMessage: string := "의뢰가 접수 되었습니다."
  const RejectedMessage: string := "의뢰를 거절하였습니다."
  const AcceptedMessage: string := "의뢰를 수락했습니다."
  const UserNotFoundError: string := "사용자를 찾지 못했습니다."
  const SelfRequestError: string := "자신에게 의뢰 할 수 없습니다."
  const NoSuchGameError: string := "해당 메이트에게 등록된 해당 게임이 없습니다."
  const RequestNotFoundError: string := "해당하는 게임 의뢰를 찾을 수 없습니다."
  const MateMismatchError: string := "메이트 사용자가 일치 하지 않습니다."
  const AlreadyAcceptedError: string := "이미 해당하는 게임 의뢰를 수락했습니다."
  const InvalidPayloadError: string := "invalid payload"

  /** A primary key larger than every existing request's. */
  function FreshRequestId(reqs: seq<GameRequest>): (id: nat)
    ensures forall g :: g in reqs ==> g.id < id
  {
    if |reqs| == 0 then 1
    else
      var rest := FreshRequestId(reqs[1..]);
      assert forall g :: g in reqs ==> g == reqs[0] || g in reqs[1..];
      if reqs[0].id < rest then rest else reqs[0].id + 1
  }

  /** `GameRequestManager.create`: `full_clean` before `save`. `clean` is
      the verdict of the model's field validators, which are not part of
      this model. A new request is pending and unreviewed. */
  function CreateRequest(reqs: seq<GameRequest>, userId: UserId, mateId: UserId, order: Order, clean: bool, now: nat): (r: Option<seq<GameRequest>>)
    ensures r.None? <==> !clean
    ensures r.Some? ==> |r.value| == |reqs| + 1 && r.value[..|reqs|] == reqs
    ensures r.Some? ==> var g := r.value[|reqs|];
              && g.userId == userId && g.mateId == mateId
              && g.gameId == order.gameId && g.price == order.price && g.amount == order.amount
              && !g.status && !g.reviewStatus && g.createdAt == now
              && forall h :: h in reqs ==> h.id != g.id
  {
    if !clean then None
    else
      var g := GameRequest(FreshRequestId(reqs), userId, mateId, order.gameId, order.price, order.amount, false, false, now);
      assert reqs + [g] == reqs + [g];
      Some(reqs + [g])
  }

  /** `accept`: sets `status` and nothing else. */
  function Accept(g: GameRequest): (a: GameRequest)
    ensures a.status
    ensures a.(status := g.status) == g
  {
    g.(status := true)
  }

  /** `reject`: clears `status` and nothing else; the row is kept. */
  function Reject(g: GameRequest): (a: GameRequest)
    ensures !a.status
    ensures a.(status := g.status) == g
  {
    g.(status := false)
  }

  /** Accepting twice is accepting once, and rejecting undoes an accept. */
  lemma AcceptIdempotent(g: GameRequest)
    ensures Accept(Accept(g)) == Accept(g)
    ensures Reject(Accept(g)) == Reject(g)
    ensures !g.status ==> Reject(g) == g
  {
  }

  /** Primary keys are unique. */
  ghost predicate UniqueKeys(reqs: seq<GameRequest>) {
    forall i, j :: 0 <= i < j < |reqs| ==> reqs[i].id != reqs[j].id
  }

  /** Saves a changed request over the row with the same key. */
  function Save(reqs: seq<GameRequest>, g: GameRequest): (r: seq<GameRequest>)
    ensures |r| == |reqs|
    ensures forall i :: 0 <= i < |r| ==> r[i] == (if reqs[i].id == g.id then g else reqs[i])
  {
    seq(|reqs|, i requires 0 <= i < |reqs| => if reqs[i].id == g.id then g else reqs[i])
  }

  /** The tables the request views read and write. */
  datatype Market = Market(users: seq<User>, infos: seq<MateGameInfo>, requests: seq<GameRequest>)

  /** `get_mate_user(user_id, is_mate=True)`: the user with that key, if a mate. */
  function MateUser(users: seq<User>, id: UserId): (r: Option<User>)
    ensures r.Some? ==> r.value in users && r.value.id == id && r.value.isMate
    ensures r.None? <==> forall u :: u in users ==> !(u.id == id && u.isMate)
  {
    Query.First(users, (u: User) => u.id == id && u.isMate)
  }

  /** `GameRequestCreateAPIView.post`. The checks run in order: the target
      must be a mate (404), must not be the caller (400), must offer the
      game (400), and the payload must be valid (400); then the manager's
      `full_clean` (verdict `clean`) either raises, an uncaught error, or
      lets exactly one request be stored, from the caller to that mate. */
  function CreateView(m: Market, caller: UserId, target: UserId, gameId: Option<nat>, order: Option<Order>, clean: bool, now: nat): (r: (Market, Response))
    ensures MateUser(m.users, target).None? ==> r == (m, Missing(UserNotFoundError))
    ensures MateUser(m.users, target).Some? && target == caller ==> r == (m, BadRequest(SelfRequestError))
    ensures MateUser(m.users, target).Some? && target != caller && LookupMateGameInfo(m.infos, target, gameId).NotFound? ==>
              r == (m, BadRequest(NoSuchGameError))
    ensures r.1.Created? ==>
              && MateUser(m.users, target).Some? && target != caller
              && LookupMateGameInfo(m.infos, target, gameId).Found?
              && order.Some? && clean
              && r.0.users == m.users && r.0.infos == m.infos
              && |r.0.requests| == |m.requests| + 1 && r.0.requests[..|m.requests|] == m.requests
              && r.0.requests == CreateRequest(m.requests, caller, target, order.value, clean, now).value
              && var g := r.0.requests[|m.requests|];
                 && g.userId == caller && g.mateId == target
                 && g.gameId == order.value.gameId && g.price == order.value.price && g.amount == order.value.amount
                 && !g.status && !g.reviewStatus && g.createdAt == now
                 && forall h :: h in m.requests ==> h.id != g.id
    ensures !r.1.Created? ==> r.0 == m
    ensures MateUser(m.users, target).Some? && target != caller && LookupMateGameInfo(m.infos, target, gameId).Found? ==>
              (r.1.Created? <==> order.Some? && clean)
              && (order.None? ==> r.1 == BadRequest(InvalidPayloadError))
              && (order.Some? && !clean ==> r.1 == ServerError)
  {
    match MateUser(m.users, target)
    case None => (m, Missing(UserNotFoundError))
    case Some(mate) =>
      if target == caller then (m, BadRequest(SelfRequestError))
      else match LookupMateGameInfo(m.infos, mate.id, gameId)
        case NotFound => (m, BadRequest(NoSuchGameError))
        case Multiple => (m, ServerError)
        case Found(_) =>
          match order
          case None => (m, BadRequest(InvalidPayloadError))
          case Some(o) =>
            match CreateRequest(m.requests, caller, mate.id, o, clean, now)
            case None => (m, ServerError)
            case Some(reqs) => (m.(requests := reqs), Created(ReceivedMessage))
  }

  /** A stored request keeps keys unique, is listed among the mate's
      received requests and the caller's ordered ones, and the mate can
      accept it. */
  lemma CreatedRequestIsPending(m: Market, caller: UserId, target: UserId, gameId: Option<nat>, order: Option<Order>, now: nat)
    requires UniqueKeys(m.requests)
    requires CreateView(m, caller, target, gameId, order, true, now).1.Created?
    ensures var reqs := CreateView(m, caller, target, gameId, order, true, now).0.requests;
            var g := reqs[|m.requests|];
            && UniqueKeys(reqs)
            && g in Received(reqs, target) && g in Ordered(reqs, caller)
            && AcceptView(reqs, target, g.id, true, Some(true)).1 == Done(AcceptedMessage)
  {
    var reqs := CreateView(m, caller, target, gameId, order, true, now).0.requests;
    var g := reqs[|m.requests|];
    assert reqs == m.requests + [g];
    AppendFresh(m.requests, g);
    assert g in reqs;
  }

  /** Appending a request under a fresh key keeps keys unique, and the key
      finds the new request. */
  lemma AppendFresh(reqs: seq<GameRequest>, g: GameRequest)
    requires UniqueKeys(reqs)
    requires forall h :: h in reqs ==> h.id != g.id
    ensures UniqueKeys(reqs + [g])
    ensures RequestById(reqs + [g], g.id) == Some(g)
  {
    var all := reqs + [g];
    forall i, j | 0 <= i < j < |all|
      ensures all[i].id != all[j].id
    {
      assert all[i] == reqs[i];
      if j < |reqs| {
        assert all[j] == reqs[j];
      } else {
        assert reqs[i] in reqs;
      }
    }
    var h := RequestById(all, g.id).value;
    assert h !in reqs;
  }

  /** The request with that key (`get_game_request_from_id`). */
  function RequestById(reqs: seq<GameRequest>, id: nat): (r: Option<GameRequest>)
    ensures r.Some? ==> r.value in reqs && r.value.id == id
    ensures r.None? <==> forall g :: g in reqs ==> g.id != id
  {
    Query.First(reqs, (g: GameRequest) => g.id == id)
  }

  /** `GameRequestAcceptAPIView.post`. Checks in order: the request exists
      (404), the caller is its mate (400), it is not already accepted (400),
      the payload is valid (400); then `is_accept` false rejects and true
      accepts. A valid payload without `is_accept` returns no response. */
  function AcceptView(reqs: seq<GameRequest>, caller: UserId, id: nat, payloadValid: bool, isAccept: Option<bool>): (r: (seq<GameRequest>, Response))
    ensures RequestById(reqs, id).None? ==> r == (reqs, Missing(RequestNotFoundError))
    ensures RequestById(reqs, id).Some? && RequestById(reqs, id).value.mateId != caller ==>
              r == (reqs, BadRequest(MateMismatchError))
    ensures RequestById(reqs, id).Some? && RequestById(reqs, id).value.mateId == caller && RequestById(reqs, id).value.status ==>
              r == (reqs, BadRequest(AlreadyAcceptedError))
    ensures r.1 == Done(AcceptedMessage) ==>
              payloadValid && isAccept == Some(true) && RequestById(reqs, id).Some?
              && r.0 == Save(reqs, Accept(RequestById(reqs, id).value))
    ensures r.1 == Done(RejectedMessage) ==>
              payloadValid && isAccept == Some(false) && RequestById(reqs, id).Some?
              && r.0 == Save(reqs, Reject(RequestById(reqs, id).value))
    ensures RequestById(reqs, id).Some? && RequestById(reqs, id).value.mateId == caller
            && !RequestById(reqs, id).value.status && !payloadValid ==>
              r == (reqs, BadRequest(InvalidPayloadError))
    ensures RequestById(reqs, id).Some? && RequestById(reqs, id).value.mateId == caller
            && !RequestById(reqs, id).value.status && payloadValid ==>
              (r.1.Done? <==> isAccept.Some?)
              && (isAccept.None? ==> r == (reqs, ServerError))
    ensures !r.1.Done? ==> r.0 == reqs
  {
    match RequestById(reqs, id)
    case None => (reqs, Missing(RequestNotFoundError))
    case Some(g) =>
      if g.mateId != caller then (reqs, BadRequest(MateMismatchError))
      else if g.status then (reqs, BadRequest(AlreadyAcceptedError))
      else if !payloadValid then (reqs, BadRequest(InvalidPayloadError))
      else match isAccept
        case Some(false) => (Save(reqs, Reject(g)), Done(RejectedMessage))
        case Some(true) => (Save(reqs, Accept(g)), Done(AcceptedMessage))
        case None => (reqs, ServerError)
  }

  /** Only a pending request reaches the reject branch, so a reject leaves
      the table exactly as it was: a rejected request stays pending. */
  lemma RejectLeavesTable(reqs: seq<GameRequest>, caller: UserId, id: nat)
    requires UniqueKeys(reqs)
    requires AcceptView(reqs, caller, id, true, Some(false)).1.Done?
    ensures AcceptView(reqs, caller, id, true, Some(false)).0 == reqs
  {
    var g := RequestById(reqs, id).value;
    assert Reject(g) == g;
    var r := Save(reqs, g);
    forall i | 0 <= i < |reqs|
      ensures r[i] == reqs[i]
    {
      if reqs[i].id == g.id {
        var k :| 0 <= k < |reqs| && reqs[k] == g;
        assert k == i;
      }
    }
  }

  /** `GameRequestOrderedAPIView`: the requests the caller made, newest first. */
  function Ordered(reqs: seq<GameRequest>, caller: UserId): (r: seq<GameRequest>)
    ensures forall g :: g in r <==> g in reqs && g.userId == caller
    ensures forall g: GameRequest | g.userId == caller :: multiset(r)[g] == multiset(reqs)[g]
    ensures Query.NewestFirst(r, (g: GameRequest) => g.createdAt)
  {
    Query.Select(reqs, (g: GameRequest) => g.userId == caller, (g: GameRequest) => g.createdAt)
  }

  /** `GameRequestReceivedAPIView`: the requests made to the caller as mate, newest first. */
  function Received(reqs: seq<GameRequest>, mate: UserId): (r: seq<GameRequest>)
    ensures forall g :: g in r <==> g in reqs && g.mateId == mate
    ensures forall g: GameRequest | g.mateId == mate :: multiset(r)[g] == multiset(reqs)[g]
    ensures Query.NewestFirst(r, (g: GameRequest) => g.createdAt)
  {
    Query.Select(reqs, (g: GameRequest) => g.mateId == mate, (g: GameRequest) => g.createdAt)
  }
}

=== FILE: mates.dfy ===
/** `MateGameInfoManager` (mates/managers.py): the games a mate offers,
    and the `is_mate` flag registering one sets on the user. */
module Mates {
  import opened Wrappers
  import opened Accounts
  import Query

  /** A `MateGameInfo` row: user `userId` offers game `gameId`. */
  datatype MateGameInfo = MateGameInfo(userId: UserId, gameId: nat, level: string, requestPrice: int)

  datatype MateDb = MateDb(users: seq<User>, infos: seq<MateGameInfo>)

  /** Stands for the `ValidationError` that `full_clean` raises. */
  const ValidationFailed: string := "ValidationError"

  /** Marks the user with that id as a mate; every other row is kept. */
  function SetMate(users: seq<User>, id: UserId): (r: seq<User>)
    ensures |r| == |users|
    ensures forall i :: 0 <= i < |r| ==> r[i] == (if users[i].id == id then users[i].(isMate := true) else users[i])
  {
    seq(|users|, i requires 0 <= i < |users| => if users[i].id == id then users[i].(isMate := true) else users[i])
  }

  /** `create`: `full_clean` first, then save and flag the user as a mate.
      `clean` is the verdict of the model's own field validators, which are
      not part of this model; a reference to a missing user never cleans. */
  function CreateMateGameInfo(db: MateDb, info: MateGameInfo, clean: bool): (r: Result<MateDb, string>)
    ensures r.Success? <==> clean && ById(db.users, info.userId).Some?
    ensures r.Failure? ==> r.error == ValidationFailed
    ensures r.Success? ==> r.value.infos == db.infos + [info]
    ensures r.Success? ==> |r.value.users| == |db.users|
    ensures r.Success? ==> forall i :: 0 <= i < |db.users| ==>
              r.value.users[i].isMate == (db.users[i].isMate || db.users[i].id == info.userId)
              && r.value.users[i].(isMate := db.users[i].isMate) == db.users[i]
  {
    if !clean || ById(db.users, info.userId).None? then Failure(ValidationFailed)
    else Success(MateDb(SetMate(db.users, info.userId), db.infos + [info]))
  }


  /** `get_mate_game_info_from_id_and_game_id`: the record for that user and
      game, `NotFound` for the source's `None`; several matching rows make
      `.get` raise, reported as `Multiple`. */
  function LookupMateGameInfo(infos: seq<MateGameInfo>, mateId: UserId, gameId: Option<nat>): (r: Lookup<MateGameInfo>)
    ensures r.Found? ==> r.value in infos && Offers(r.value, mateId, gameId)
    ensures r.Found? ==> forall i, j :: 0 <= i < j < |infos| ==> !(Offers(infos[i], mateId, gameId) && Offers(infos[j], mateId, gameId))
    ensures r.NotFound? <==> forall i :: i in infos ==> !Offers(i, mateId, gameId)
    ensures r.Multiple? <==> exists i, j :: 0 <= i < j < |infos| && Offers(infos[i], mateId, gameId) && Offers(infos[j], mateId, gameId)
    ensures gameId.None? ==> r.NotFound?
  {
    Query.Get(infos, (i: MateGameInfo) => Offers(i, mateId, gameId))
  }

  /** The entry is that mate's offer of that game. */
  predicate Offers(info: MateGameInfo, mateId: UserId, gameId: Option<nat>) {
    info.userId == mateId && gameId == Some(info.gameId)
  }

  /** Registering a game makes the offered game findable for that user. */
  lemma CreatedInfoIsFound(db: MateDb, info: MateGameInfo, clean: bool)
    requires CreateMateGameInfo(db, info, clean).Success?
    ensures !LookupMateGameInfo(CreateMateGameInfo(db, info, clean).value.infos, info.userId, Some(info.gameId)).NotFound?
    ensures ById(CreateMateGameInfo(db, info, clean).value.users, info.userId).Some?
    ensures ById(CreateMateGameInfo(db, info, clean).value.users, info.userId).value.isMate
  {
    var db' := CreateMateGameInfo(db, info, clean).value;
    assert info in db'.infos;
    var u := ById(db.users, info.userId).value;
    var k :| 0 <= k < |db.users| && db.users[k] == u;
    assert db'.users[k] in db'.users;
  }
}

=== FILE: online_status.dfy ===
/** The online flag (users/consumers.py and the `get_is_online` methods of
    users/serializers/user_serializer.py). A status socket writes
    `str(True)` or `str(False)` under `user:<id>:is_online` in Redis, and a
    profile reads the flag back case-insensitively. */
module OnlineStatus {
  import opened Wrappers
  import opened Text

  /** The Redis keyspace the flags live in. */
  type StatusStore = map<string, string>

  const KeyPrefix: string := "user:"
  const KeySuffix: string := ":is_online"
  /** `str(None)`: the id an anonymous user contributes to the key. */
  const NoneText: string := "None"
  const TokenMarker: string := "token="

  /** The text between the key's prefix and suffix: `str(user.id)`. */
  function KeyMiddle(id: Option<nat>): string {
    match id case Some(n) => NatToString(n) case None => NoneText
  }

  /** `f"user:{user.id}:is_online"`; an anonymous user has no id. */
  function StatusKey(id: Option<nat>): (k: string)
    ensures |k| > |KeyPrefix| + |KeySuffix|
    ensures k[..|KeyPrefix|] == KeyPrefix && k[|k| - |KeySuffix|..] == KeySuffix
  {
    KeyPrefix + KeyMiddle(id) + KeySuffix
  }

  /** The middle of a key is what lies between the prefix and the suffix. */
  lemma MiddleOfKey(id: Option<nat>)
    ensures StatusKey(id)[|KeyPrefix|..|StatusKey(id)| - |KeySuffix|] == KeyMiddle(id)
  {
    var m := KeyMiddle(id);
    assert StatusKey(id) == KeyPrefix + m + KeySuffix;
    assert |StatusKey(id)| - |KeySuffix| == |KeyPrefix| + |m|;
  }

  /** Equal keys have equal middles. */
  lemma KeyMiddleDetermined(a: Option<nat>, b: Option<nat>)
    ensures StatusKey(a) == StatusKey(b) ==> KeyMiddle(a) == KeyMiddle(b)
  {
    MiddleOfKey(a);
    MiddleOfKey(b);
  }

  /** The middle of a key names one user, or the anonymous user. */
  lemma KeyMiddleInjective(a: Option<nat>, b: Option<nat>)
    ensures KeyMiddle(a) == KeyMiddle(b) ==> a == b
  {
    if a.Some? && b.Some? {
      NatToStringInjective(a.value, b.value);
    }
  }

  /** Distinct users, and the anonymous user, write distinct keys. */
  lemma StatusKeyInjective(a: Option<nat>, b: Option<nat>)
    ensures StatusKey(a) == StatusKey(b) ==> a == b
  {
    KeyMiddleDetermined(a, b);
    KeyMiddleInjective(a, b);
  }

  /** `str(status)` for a Python bool. */
  function StatusText(b: bool): (s: string)
    ensures ReadFlag(Some(s)) == b
  {
    if b then "True" else "False"
  }

  /** `get_is_online` on the raw value: an absent or empty value is False,
      anything else is True exactly when it lower-cases to "true". */
  function ReadFlag(v: Option<string>): (r: bool)
    ensures r <==> v.Some? && |v.value| == 4 &&
                   forall i :: 0 <= i < 4 ==> v.value[i] == "true"[i] || v.value[i] == "TRUE"[i]
  {
    match v
    case None => false
    case Some(s) =>
      if |s| == 0 then false
      else
        var b := Lower(s) == "true";
        assert b ==> forall i :: 0 <= i < 4 ==> s[i] == "true"[i] || s[i] == "TRUE"[i] by {
          if b {
            forall i | 0 <= i < 4
              ensures s[i] == "true"[i] || s[i] == "TRUE"[i]
            {
              assert AsciiLower(s[i]) == "true"[i];
            }
          }
        }
        b
  }

  /** The flag a profile shows for user `id`. */
  function IsOnline(store: StatusStore, id: nat): (r: bool)
    ensures r ==> StatusKey(Some(id)) in store
    ensures StatusKey(Some(id)) in store && store[StatusKey(Some(id))] == StatusText(true) ==> r
    ensures StatusKey(Some(id)) in store && store[StatusKey(Some(id))] == StatusText(false) ==> !r
  {
    var k := StatusKey(Some(id));
    ReadFlag(if k in store then Some(store[k]) else None)
  }

  /** `update_user_status`: `SET user:<id>:is_online str(status)`. */
  function UpdateUserStatus(store: StatusStore, id: Option<nat>, status: bool): (s: StatusStore)
    ensures StatusKey(id) in s && ReadFlag(Some(s[StatusKey(id)])) == status
    ensures forall k :: k != StatusKey(id) ==> (k in s <==> k in store) && (k in store ==> s[k] == store[k])
  {
    store[StatusKey(id) := StatusText(status)]
  }

  /** The last occurrence of `TokenMarker` starting at or before `j`. */
  function LastMarker(q: string, j: int): (r: Option<nat>)
    decreases j + 1
    ensures r.Some? ==> r.value <= j && OccursAt(q, TokenMarker, r.value)
    ensures forall i :: (r.None? || r.value < i) && i <= j ==> !OccursAt(q, TokenMarker, i)
  {
    if j < 0 then None
    else if OccursAt(q, TokenMarker, j) then Some(j)
    else LastMarker(q, j - 1)
  }

  /** `query_string.split("token=")[-1]`: the text after the last marker,
      or the whole query when it has none. */
  function TokenFromQuery(q: string): (t: string)
    ensures |t| <= |q| && t == q[|q| - |t|..]
    ensures !Contains(q, TokenMarker) ==> t == q
    ensures Contains(q, TokenMarker) ==>
              |t| + |TokenMarker| <= |q| && OccursAt(q, TokenMarker, |q| - |t| - |TokenMarker|)
    ensures !Contains(t, TokenMarker)
  {
    match LastMarker(q, |q| - |TokenMarker|)
    case None =>
      assert !Contains(q, TokenMarker) by {
        forall j | 0 <= j <= |q| ensures !OccursAt(q, TokenMarker, j) {
        }
      }
      q
    case Some(j) =>
      var t := q[j + |TokenMarker|..];
      assert !Contains(t, TokenMarker) by {
        forall i | 0 <= i <= |t| ensures !OccursAt(t, TokenMarker, i) {
          if OccursAt(t, TokenMarker, i) {
            assert q[j + |TokenMarker| + i..j + |TokenMarker| + i + |TokenMarker|] == t[i..i + |TokenMarker|];
            assert OccursAt(q, TokenMarker, j + |TokenMarker| + i);
          }
        }
      }
      t
  }

  /** After the marker placed before a marker-free token, the query
      holds no further marker ("token=" overlaps no later copy of itself). */
  lemma NoLaterMarker(prefix: string, token: string)
    requires !Contains(token, TokenMarker)
    ensures forall j :: |prefix| < j ==> !OccursAt(prefix + TokenMarker + token, TokenMarker, j)
  {
    var q := prefix + TokenMarker + token;
    forall j | |prefix| < j ensures !OccursAt(q, TokenMarker, j) {
      if j < |prefix| + |TokenMarker| {
        assert q[j] == TokenMarker[j - |prefix|] != 't';
      } else if OccursAt(q, TokenMarker, j) {
        var i := j - |prefix| - |TokenMarker|;
        assert token[i..i + |TokenMarker|] == q[j..j + |TokenMarker|];
        assert OccursAt(token, TokenMarker, i);
      }
    }
  }

  /** A query ending in `token=` followed by a marker-free token yields
      exactly that token, whatever comes before. */
  lemma TokenRoundTrip(prefix: string, token: string)
    requires !Contains(token, TokenMarker)
    ensures TokenFromQuery(prefix + TokenMarker + token) == token
  {
    var q := prefix + TokenMarker + token;
    assert OccursAt(q, TokenMarker, |prefix|) by {
      assert q[|prefix|..|prefix| + |TokenMarker|] == TokenMarker;
    }
    NoLaterMarker(prefix, token);
    var m := LastMarker(q, |q| - |TokenMarker|);
    assert m == Some(|prefix|);
    assert q[|prefix| + |TokenMarker|..] == token;
  }

  /** What the access-token lookup reports: a user, the anonymous user
      (`is_authenticated` false), or one of the four auth exceptions. */
  datatype Auth = Authenticated(id: nat) | Anonymous | AuthFailed

  datatype SocketAction = Close | Accept

  /** The consumer after `connect`: the socket calls it made, the store, the
      user it kept (`None` when `self.user` was never assigned) and whether
      it ended in an exception. */
  datatype Connected = Connected(store: StatusStore, actions: seq<SocketAction>, user: Option<Auth>, crashed: bool)

  /** `StatusConsumer.connect`. `resolve` stands for the token lookup.
      Closing does not stop the handler: an anonymous user is closed, then
      marked online under the key `user:None:is_online`, then accepted; on
      an auth exception `self.user` is never assigned, so the status write
      raises after the close. */
  function StatusConnect(store: StatusStore, query: string, resolve: string -> Auth): (c: Connected)
    ensures var a := resolve(TokenFromQuery(query));
            && (a.Authenticated? ==> c == Connected(UpdateUserStatus(store, Some(a.id), true), [Accept], Some(a), false))
            && (a.Anonymous? ==> c == Connected(UpdateUserStatus(store, None, true), [Close, Accept], Some(a), false))
            && (a.AuthFailed? ==> c == Connected(store, [Close], None, true))
  {
    var a := resolve(TokenFromQuery(query));
    match a
    case Authenticated(id) => Connected(store[StatusKey(Some(id)) := StatusText(true)], [Accept], Some(a), false)
    case Anonymous => Connected(store[StatusKey(None) := StatusText(true)], [Close, Accept], Some(a), false)
    case AuthFailed => Connected(store, [Close], None, true)
  }

  /** `StatusConsumer.disconnect`: an authenticated user is marked offline;
      the socket is closed in every case. */
  function StatusDisconnect(store: StatusStore, user: Option<Auth>): (r: (StatusStore, seq<SocketAction>))
    ensures r.1 == [Close]
    ensures user.Some? && user.value.Authenticated? ==> r.0 == UpdateUserStatus(store, Some(user.value.id), false)
    ensures !(user.Some? && user.value.Authenticated?) ==> r.0 == store
  {
    var s := match user
             case Some(Authenticated(id)) => store[StatusKey(Some(id)) := StatusText(false)]
             case _ => store;
    (s, [Close])
  }

  /** A connected user reads as online, and reads as offline once the
      socket disconnects. */
  lemma ConnectDisconnectFlag(store: StatusStore, query: string, resolve: string -> Auth)
    requires resolve(TokenFromQuery(query)).Authenticated?
    ensures var id := resolve(TokenFromQuery(query)).id;
            var c := StatusConnect(store, query, resolve);
            IsOnline(c.store, id) && !IsOnline(StatusDisconnect(c.store, c.user).0, id)
  {
  }

  /** An anonymous connection changes no registered user's flag. */
  lemma AnonymousTouchesNoUser(store: StatusStore, query: string, resolve: string -> Auth, id: nat)
    requires resolve(TokenFromQuery(query)).Anonymous?
    ensures IsOnline(StatusConnect(store, query, resolve).store, id) == IsOnline(store, id)
  {
    StatusKeyInjective(Some(id), None);
  }
}

=== FILE: pagination.dfy ===
/** Page-number pagination as configured by the list views: a page size
    chosen from the query string, and the slice of results for one page. */
module Pagination {
  import opened Wrappers
  import Query

  /** `MessagePagination`: 20 messages per page unless the client asks
      for another size, never more than 100. */
  const MessageDefaultPageSize: nat := 20
  const MessageMaxPageSize: nat := 100

  /** `ReviewPagination`: a fixed 10 reviews per page. */
  const ReviewPageSize: nat := 10

  /** The page size for a request. `requested` is the `page_size` query
      parameter read as an integer (`None` when absent or not an integer).
      A positive request is honoured up to `max`; anything else falls back
      to the default. */
  function PageSize(requested: Option<int>, default: nat, max: nat): (n: int)
    requires 0 < default <= max
    ensures 1 <= n <= max
    ensures (requested.None? || requested.value <= 0) ==> n == default
    ensures requested.Some? && 0 < requested.value <= max ==> n == requested.value
    ensures requested.Some? && requested.value > max ==> n == max
  {
    match requested
    case Some(v) => if v <= 0 then default else if v > max then max else v
    case None => default
  }

  /** The page size `MessageListView` uses. */
  function MessagePageSize(requested: Option<int>): (n: int)
    ensures 1 <= n <= 100
    ensures (requested.None? || requested.value <= 0) ==> n == 20
    ensures requested.Some? && 0 < requested.value <= 100 ==> n == requested.value
    ensures requested.Some? && requested.value > 100 ==> n == 100
  {
    PageSize(requested, MessageDefaultPageSize, MessageMaxPageSize)
  }

  /** Number of pages for `count` items: at least one, even when empty. */
  function NumPages(count: nat, size: nat): (n: nat)
    requires size >= 1
    ensures n >= 1
    ensures count > 0 ==> (n - 1) * size < count <= n * size
  {
    var hits := if count == 0 then 1 else count;
    (hits + size - 1) / size
  }

  /** Page `number` (counting from 1) of `items`, or `None` when the page
      does not exist (the paginator's "invalid page" 404). */
  function Page<T>(items: seq<T>, number: int, size: nat): (r: Option<seq<T>>)
    requires size >= 1
    ensures r.Some? <==> 1 <= number <= NumPages(|items|, size)
    ensures r.Some? ==> |r.value| <= size
    ensures r.Some? ==> forall k :: 0 <= k < |r.value| ==>
                          (number - 1) * size + k < |items| && r.value[k] == items[(number - 1) * size + k]
    ensures r.Some? && |items| > 0 ==> |r.value| > 0
    ensures r.Some? ==> |r.value| == size || (number - 1) * size + |r.value| == |items|
  {
    if number < 1 || number > NumPages(|items|, size) then None
    else
      var bottom := (number - 1) * size;
      BottomInRange(|items|, number, size);
      var top := if bottom + size >= |items| then |items| else bottom + size;
      Some(items[bottom..top])
  }

  /** A page of a newest-first list is itself newest first, and holds only
      items of the list. */
  lemma PageOfNewestFirst<T>(items: seq<T>, number: int, size: nat, key: T -> int)
    requires size >= 1 && Query.NewestFirst(items, key)
    requires Page(items, number, size).Some?
    ensures Query.NewestFirst(Page(items, number, size).value, key)
    ensures forall x :: x in Page(items, number, size).value ==> x in items
  {
    var p := Page(items, number, size).value;
    var bottom := (number - 1) * size;
    forall i, j | 0 <= i < j < |p|
      ensures key(p[i]) >= key(p[j])
    {
      assert p[i] == items[bottom + i] && p[j] == items[bottom + j];
    }
    forall x | x in p
      ensures x in items
    {
      var i :| 0 <= i < |p| && p[i] == x;
      assert p[i] == items[bottom + i];
    }
  }

  /** Every item is on exactly the page its position says. */
  lemma ItemOnPage<T>(items: seq<T>, k: nat, size: nat)
    requires size >= 1 && k < |items|
    ensures Page(items, k / size + 1, size).Some?
    ensures k % size < |Page(items, k / size + 1, size).value|
    ensures Page(items, k / size + 1, size).value[k % size] == items[k]
  {
    var q, rem := k / size, k % size;
    assert k == q * size + rem && 0 <= rem < size;
    var m := NumPages(|items|, size);
    if q + 1 > m {
      MulMono(m, q, size);
      assert false;
    }
    var r := Page(items, q + 1, size).value;
    assert (q + 1 - 1) * size == q * size;
  }

  /** The first position of an existing page lies inside the items
      (or is 0 for the empty first page). */
  lemma BottomInRange(count: nat, number: int, size: nat)
    requires size >= 1 && 1 <= number <= NumPages(count, size)
    ensures 0 <= (number - 1) * size <= count
    ensures count > 0 ==> (number - 1) * size < count
  {
    var m := NumPages(count, size);
    MulMono(number - 1, m - 1, size);
  }

  lemma MulMono(a: nat, b: nat, c: nat)
    requires a <= b
    ensures a * c <= b * c
  {
  }
}

=== FILE: profiles.dfy ===
/** Profile endpoints (users/views/user_view.py): reading a profile, with
    its online flag, and updating one's own profile under a nickname
    uniqueness rule. */
module Profiles {
  import opened Wrappers
  import opened Accounts
  import Query
  import Mates
  import OnlineStatus

  const UserNotFoundError: string := "사용자를 찾지 못했습니다."
  const NicknameTakenError: string := "닉네임이 이미 사용 중입니다."
  /** Stands for `serializer.errors`, whose content is not modelled. */
  const InvalidPayloadError: string := "invalid payload"

  /** The serialized profile: `UserProfileSerializer` for a plain user,
      `UserMateSerializer` (adding the mate's game entries) for a mate. */
  datatype Profile =
    | UserProfile(user: User, isOnline: bool)
    | MateProfile(user: User, isOnline: bool, games: seq<Mates.MateGameInfo>)

  datatype Response =
    | Ok(profile: Profile)         // 200
    | Missing(error: string)       // 404
    | BadRequest(error: string)    // 400

  /** `UserProfileAPIView.get`. */
  function ProfileGet(users: seq<User>, infos: seq<Mates.MateGameInfo>, store: OnlineStatus.StatusStore, id: UserId): (r: Response)
    ensures ById(users, id).None? <==> r == Missing(UserNotFoundError)
    ensures ById(users, id).Some? ==> r.Ok?
    ensures r.Ok? ==> r.profile.user == ById(users, id).value
                      && r.profile.isOnline == OnlineStatus.IsOnline(store, id)
                      && (r.profile.MateProfile? <==> r.profile.user.isMate)
    ensures r.Ok? && r.profile.MateProfile? ==>
              forall g :: g in r.profile.games <==> g in infos && g.userId == id
  {
    match ById(users, id)
    case None => Missing(UserNotFoundError)
    case Some(u) =>
      if !u.isMate then Ok(UserProfile(u, OnlineStatus.IsOnline(store, id)))
      else Ok(MateProfile(u, OnlineStatus.IsOnline(store, id), Query.Filter(infos, (g: Mates.MateGameInfo) => g.userId == id)))
  }

  /** A PATCH payload. `None` means the key is absent. The read-only keys are
      carried too, to show that they are ignored. */
  datatype Patch = Patch(
    nickname: Option<string>,
    gender: Option<Option<string>>,
    profileImage: Option<Option<string>>,
    birthday: Option<Option<string>>,
    description: Option<Option<string>>,
    id: Option<UserId>,
    email: Option<string>,
    socialProvider: Option<string>,
    isMate: Option<bool>)

  function Keep<T>(current: T, given: Option<T>): (r: T)
    ensures given.None? ==> r == current
    ensures given.Some? ==> r == given.value
  {
    match given case None => current case Some(v) => v
  }

  /** What `serializer.save()` writes: the writable fields present in the
      payload. */
  function Apply(u: User, p: Patch): (v: User)
    ensures v.id == u.id && v.email == u.email && v.socialProvider == u.socialProvider && v.isMate == u.isMate
    ensures v.nickname == Keep(u.nickname, p.nickname)
    ensures v.gender == Keep(u.gender, p.gender) && v.profileImage == Keep(u.profileImage, p.profileImage)
    ensures v.birthday == Keep(u.birthday, p.birthday) && v.description == Keep(u.description, p.description)
  {
    u.(nickname := Keep(u.nickname, p.nickname),
       gender := Keep(u.gender, p.gender),
       profileImage := Keep(u.profileImage, p.profileImage),
       birthday := Keep(u.birthday, p.birthday),
       description := Keep(u.description, p.description))
  }

  /** Another user already holds `nickname`. */
  predicate TakenByOther(users: seq<User>, caller: UserId, nickname: string) {
    exists u | u in users :: u.nickname == nickname && u.id != caller
  }

  /** Overwrites the caller's row. */
  function SaveUser(users: seq<User>, v: User): (r: seq<User>)
    ensures |r| == |users|
    ensures forall i :: 0 <= i < |users| ==> r[i] == if users[i].id == v.id then v else users[i]
  {
    if |users| == 0 then []
    else [if users[0].id == v.id then v else users[0]] + SaveUser(users[1..], v)
  }

  /** `UserMeAPIView.patch`. A non-empty nickname held by another user is
      refused first; only then does the serializer run, whose verdict is
      `valid`. The caller is authenticated, so their row exists. */
  function PatchMe(users: seq<User>, store: OnlineStatus.StatusStore, caller: UserId, p: Patch, valid: bool): (r: (seq<User>, Response))
    requires ById(users, caller).Some?
    ensures p.nickname.Some? && p.nickname.value != "" && TakenByOther(users, caller, p.nickname.value) ==>
              r == (users, BadRequest(NicknameTakenError))
    ensures !r.1.Ok? ==> r.0 == users && r.1.BadRequest?
    ensures r.1.Ok? <==> valid && !(p.nickname.Some? && p.nickname.value != "" && TakenByOther(users, caller, p.nickname.value))
    ensures r.1.Ok? ==>
              var v := Apply(ById(users, caller).value, p);
              r.0 == SaveUser(users, v) && r.1.profile == UserProfile(v, OnlineStatus.IsOnline(store, caller))
  {
    if p.nickname.Some? && p.nickname.value != "" && TakenByOther(users, caller, p.nickname.value) then
      (users, BadRequest(NicknameTakenError))
    else if !valid then
      (users, BadRequest(InvalidPayloadError))
    else
      var v := Apply(ById(users, caller).value, p);
      (SaveUser(users, v), Ok(UserProfile(v, OnlineStatus.IsOnline(store, caller))))
  }

  /** No two accounts share a nickname. */
  ghost predicate NicknamesUnique(users: seq<User>) {
    forall i, j :: 0 <= i < j < |users| ==> users[i].nickname != users[j].nickname
  }

  /** A patch changes the caller's row and no other, and never its
      read-only fields, whatever the payload says about them. */
  lemma PatchTouchesOnlyCaller(users: seq<User>, store: OnlineStatus.StatusStore, caller: UserId, p: Patch, valid: bool, i: nat)
    requires UniqueIds(users)
    requires ById(users, caller).Some?
    requires i < |users|
    ensures var r := PatchMe(users, store, caller, p, valid).0;
            |r| == |users|
            && (users[i].id != caller ==> r[i] == users[i])
            && r[i].id == users[i].id && r[i].email == users[i].email
            && r[i].socialProvider == users[i].socialProvider && r[i].isMate == users[i].isMate
  {
    var r := PatchMe(users, store, caller, p, valid);
    if r.1.Ok? {
      var me := ById(users, caller).value;
      var v := Apply(me, p);
      assert r.0 == SaveUser(users, v);
      assert r.0[i] == if users[i].id == caller then v else users[i];
      if users[i].id == caller {
        var k :| 0 <= k < |users| && users[k] == me;
        assert k == i;
      }
    }
  }

  /** Nickname uniqueness survives a successful patch, provided the
      payload's nickname is absent or non-empty (a blank one skips the
      check and is left to the serializer). */
  lemma PatchKeepsNicknamesUnique(users: seq<User>, store: OnlineStatus.StatusStore, caller: UserId, p: Patch, valid: bool)
    requires UniqueIds(users) && NicknamesUnique(users)
    requires ById(users, caller).Some?
    requires p.nickname.None? || p.nickname.value != ""
    ensures NicknamesUnique(PatchMe(users, store, caller, p, valid).0)
  {
    var r := PatchMe(users, store, caller, p, valid);
    if r.1.Ok? {
      var me := ById(users, caller).value;
      var v := Apply(me, p);
      var k :| 0 <= k < |users| && users[k] == me;
      forall i, j | 0 <= i < j < |users| ensures r.0[i].nickname != r.0[j].nickname {
        if users[i].id == caller && users[j].id != caller {
          assert i == k;
          if p.nickname.Some? {
            assert users[j] in users;
          }
        } else if users[j].id == caller && users[i].id != caller {
          assert j == k;
          if p.nickname.Some? {
            assert users[i] in users;
          }
        }
      }
    }
  }

  /** A connection authenticated as `id` makes that user's profile read as
      online, and the disconnect makes it read as offline. */
  lemma ConnectShowsOnline(users: seq<User>, infos: seq<Mates.MateGameInfo>, store: OnlineStatus.StatusStore,
                           query: string, resolve: string -> OnlineStatus.Auth)
    requires resolve(OnlineStatus.TokenFromQuery(query)).Authenticated?
    requires ById(users, resolve(OnlineStatus.TokenFromQuery(query)).id).Some?
    ensures var id := resolve(OnlineStatus.TokenFromQuery(query)).id;
            var c := OnlineStatus.StatusConnect(store, query, resolve);
            && ProfileGet(users, infos, c.store, id).Ok?
            && ProfileGet(users, infos, c.store, id).profile.isOnline
            && !ProfileGet(users, infos, OnlineStatus.StatusDisconnect(c.store, c.user).0, id).profile.isOnline
  {
    OnlineStatus.ConnectDisconnectFlag(store, query, resolve);
  }

  /** After a successful patch, reading the caller's profile shows the
      patched row. */
  lemma PatchThenGet(users: seq<User>, infos: seq<Mates.MateGameInfo>, store: OnlineStatus.StatusStore,
                     caller: UserId, p: Patch, valid: bool)
    requires UniqueIds(users)
    requires ById(users, caller).Some?
    requires PatchMe(users, store, caller, p, valid).1.Ok?
    ensures var users' := PatchMe(users, store, caller, p, valid).0;
            && ProfileGet(users', infos, store, caller).Ok?
            && ProfileGet(users', infos, store, caller).profile.user == Apply(ById(users, caller).value, p)
  {
    var me := ById(users, caller).value;
    var v := Apply(me, p);
    var users' := PatchMe(users, store, caller, p, valid).0;
    assert users' == SaveUser(users, v);
    var k :| 0 <= k < |users| && users[k] == me;
    assert users'[k] == v;
    var w := ById(users', caller).value;
    var j :| 0 <= j < |users'| && users'[j] == w;
    assert users[j].id == caller;
  }
}

=== FILE: query.dfy ===
/** The few ORM query shapes the handlers use, over tables held as sequences
    in primary-key order: `filter(...)`, `.get(...)`, `.first()` and
    `.order_by("-created_at")`. */
module Query {
  import opened Wrappers

  /** `filter(p)`: the rows satisfying `p`, in table order. */
  function Filter<T(!new)>(xs: seq<T>, p: T -> bool): (r: seq<T>)
    ensures |r| <= |xs|
    ensures forall x :: x in r <==> x in xs && p(x)
    ensures forall i :: 0 <= i < |r| ==> p(r[i])
    ensures forall x | p(x) :: multiset(r)[x] == multiset(xs)[x]
  {
    if |xs| == 0 then []
    else
      var rest := Filter(xs[1..], p);
      assert xs == [xs[0]] + xs[1..];
      if p(xs[0]) then [xs[0]] + rest else rest
  }

  /** `.get(p)`: the single matching row, or the exception `.get` raises. */
  function Get<T(!new)>(xs: seq<T>, p: T -> bool): (r: Lookup<T>)
    ensures r.Found? ==> r.value in xs && p(r.value)
    ensures r.Found? ==> forall x :: x in xs && p(x) ==> x == r.value
    ensures r.NotFound? <==> forall x :: x in xs ==> !p(x)
    // two matching positions, even holding equal rows, make `.get` raise
    ensures r.Multiple? <==> exists i, j :: 0 <= i < j < |xs| && p(xs[i]) && p(xs[j])
  {
    if |xs| == 0 then NotFound
    else
      var rest := Get(xs[1..], p);
      assert forall x :: x in xs <==> x == xs[0] || x in xs[1..];
      if !p(xs[0]) then
        assert rest.Multiple? <==> exists i, j :: 0 <= i < j < |xs| && p(xs[i]) && p(xs[j]) by {
          if rest.Multiple? {
            var i, j :| 0 <= i < j < |xs[1..]| && p(xs[1..][i]) && p(xs[1..][j]);
            assert p(xs[i + 1]) && p(xs[j + 1]);
          }
          if exists i, j :: 0 <= i < j < |xs| && p(xs[i]) && p(xs[j]) {
            var i, j :| 0 <= i < j < |xs| && p(xs[i]) && p(xs[j]);
            assert p(xs[1..][i - 1]) && p(xs[1..][j - 1]);
          }
        }
        rest
      else
        match rest
        case NotFound =>
          assert !exists i, j :: 0 <= i < j < |xs| && p(xs[i]) && p(xs[j]) by {
            forall i, j | 0 <= i < j < |xs| ensures !(p(xs[i]) && p(xs[j])) {
              assert xs[j] in xs[1..];
            }
          }
          Found(xs[0])
        case Found(y) =>
          assert exists i, j :: 0 <= i < j < |xs| && p(xs[i]) && p(xs[j]) by {
            var k :| 0 <= k < |xs[1..]| && xs[1..][k] == y;
            assert p(xs[0]) && p(xs[k + 1]);
          }
          Multiple
        case Multiple =>
          assert exists i, j :: 0 <= i < j < |xs| && p(xs[i]) && p(xs[j]) by {
            var i, j :| 0 <= i < j < |xs[1..]| && p(xs[1..][i]) && p(xs[1..][j]);
            assert p(xs[0]) && p(xs[j + 1]);
          }
          Multiple
  }

  /** `.first()` on an unordered query: the lowest-key matching row. */
  function First<T>(xs: seq<T>, p: T -> bool): (r: Option<T>)
    ensures r.Some? ==> r.value in xs && p(r.value)
    ensures r.None? <==> forall x :: x in xs ==> !p(x)
    ensures r.Some? ==> exists i :: 0 <= i < |xs| && xs[i] == r.value
                                    && forall k :: 0 <= k < i ==> !p(xs[k])
  {
    if |xs| == 0 then None
    else if p(xs[0]) then Some(xs[0])
    else
      var r := First(xs[1..], p);
      assert forall x :: x in xs ==> x == xs[0] || x in xs[1..];
      if r.Some? then
        ghost var i :| 0 <= i < |xs[1..]| && xs[1..][i] == r.value && forall k :: 0 <= k < i ==> !p(xs[1..][k]);
        assert xs[i + 1] == r.value;
        r
      else r
  }

  /** Rows ordered newest first by `key`, as `order_by("-created_at")` returns them. */
  ghost predicate NewestFirst<T>(xs: seq<T>, key: T -> int) {
    forall i, j :: 0 <= i < j < |xs| ==> key(xs[i]) >= key(xs[j])
  }

  /** Puts `x` into a newest-first sequence, before the first row that is not newer. */
  function Insert<T>(x: T, xs: seq<T>, key: T -> int): (r: seq<T>)
    requires NewestFirst(xs, key)
    ensures NewestFirst(r, key)
    ensures multiset(r) == multiset(xs) + multiset{x}
    ensures |r| == |xs| + 1
  {
    if |xs| == 0 || key(x) >= key(xs[0]) then [x] + xs
    else
      var rest := Insert(x, xs[1..], key);
      assert xs == [xs[0]] + xs[1..];
      forall k | 0 <= k < |rest|
        ensures key(rest[k]) <= key(xs[0])
      {
        assert rest[k] in multiset(rest);
        if rest[k] != x {
          assert rest[k] in multiset(xs[1..]);
          var m :| 0 <= m < |xs[1..]| && xs[1..][m] == rest[k];
          assert xs[m + 1] == rest[k];
        }
      }
      [xs[0]] + rest
  }

  /** Sorts rows newest first; rows with equal keys may come in any order,
      as they may from the database. */
  function SortNewestFirst<T>(xs: seq<T>, key: T -> int): (r: seq<T>)
    ensures NewestFirst(r, key)
    ensures multiset(r) == multiset(xs)
    ensures |r| == |xs|
  {
    if |xs| == 0 then []
    else
      assert xs == [xs[0]] + xs[1..];
      Insert(xs[0], SortNewestFirst(xs[1..], key), key)
  }

  /** Sequences with equal multisets hold the same elements. */
  lemma SameElements<T>(xs: seq<T>, ys: seq<T>)
    requires multiset(xs) == multiset(ys)
    ensures forall x :: x in xs <==> x in ys
  {
    assert forall x :: x in xs <==> x in multiset(xs);
    assert forall x :: x in ys <==> x in multiset(ys);
  }

  /** `filter(p).order_by("-created_at")`. */
  function Select<T(!new)>(xs: seq<T>, p: T -> bool, key: T -> int): (r: seq<T>)
    ensures forall x :: x in r <==> x in xs && p(x)
    ensures NewestFirst(r, key)
    ensures forall x | p(x) :: multiset(r)[x] == multiset(xs)[x]
  {
    var f := Filter(xs, p);
    var r := SortNewestFirst(f, key);
    assert forall x :: x in r <==> x in multiset(f);
    r
  }
}

=== FILE: reviews.dfy ===
/** Reviews (reviews/serializers/serializers.py and
    reviews/views/reviews_views.py): the user who ordered a completed game
    request may review it once, with a rating from 1 to 5. */
module Reviews {
  import opened Wrappers
  import opened Accounts
  import GameRequests
  import Query
  import Pagination

  /** A `Review` row; `gameRequestId` is `None` when the request link is null. */
  datatype Review = Review(gameRequestId: Option<nat>, rating: real, content: string, createdAt: nat)

  datatype ReviewDb = ReviewDb(requests: seq<GameRequests.GameRequest>, reviews: seq<Review>)

  datatype Response =
    | Created(review: Review)          // 201
    | Page(reviews: seq<Review>)       // 200
    | BadRequest(error: string)        // 400
    | PageMissing                      // 404 from the paginator

  const RatingRangeError: string := "평점은 1.0에서 5.0 사이여야 합니다."
  const NotOwnerError: string := "본인이 의뢰한 게임에 대해서만 리뷰를 작성할 수 있습니다."
  const NotCompletedError: string := "완료되지 않은 게임 요청에 대해서는 리뷰를 작성할 수 없습니다."
  const AlreadyReviewedError: string := "해당 게임 요청에 대한 리뷰는 이미 존재합니다."
  const InvalidRequestError: string := "유효하지 않은 게임 요청입니다."
  const ListFailedError: string := "리뷰 조회에 실패하였습니다."
  const RatingRequiredError: string := "This field is required."

  /** `validate_rating`: both bounds inclusive. */
  function ValidateRating(v: real): (r: Result<real, string>)
    ensures r.Success? <==> 1.0 <= v <= 5.0
    ensures r.Success? ==> r.value == v
    ensures r.Failure? ==> r.error == RatingRangeError
  {
    if v < 1.0 || v > 5.0 then Failure(RatingRangeError) else Success(v)
  }

  /** `AllReviewSerializer.validate`: ownership, then completion, then no
      earlier review; the first failing check gives the message. */
  function ValidateReview(g: GameRequests.GameRequest, caller: UserId): (r: Option<string>)
    ensures r.None? <==> g.userId == caller && g.status && !g.reviewStatus
    ensures g.userId != caller ==> r == Some(NotOwnerError)
    ensures g.userId == caller && !g.status ==> r == Some(NotCompletedError)
    ensures g.userId == caller && g.status && g.reviewStatus ==> r == Some(AlreadyReviewedError)
  {
    if g.userId != caller then Some(NotOwnerError)
    else if !g.status then Some(NotCompletedError)
    else if g.reviewStatus then Some(AlreadyReviewedError)
    else None
  }

  /** `ReviewSerializer.get_author_id`: the ordering user of the reviewed
      request, or `None` when the review has no (existing) request. */
  function AuthorId(requests: seq<GameRequests.GameRequest>, rv: Review): (r: Option<UserId>)
    ensures r.None? <==> forall g :: g in requests ==> Some(g.id) != rv.gameRequestId
    ensures r.Some? ==> exists g :: g in requests && Some(g.id) == rv.gameRequestId && g.userId == r.value
  {
    match rv.gameRequestId
    case None => None
    case Some(id) =>
      match GameRequests.RequestById(requests, id)
      case None => None
      case Some(g) => Some(g.userId)
  }

  /** `GameReviewCreateAPIView.post`. The request is taken from the path and
      the author from the caller, whatever the payload says. The rating is
      checked first (field validation), then the serializer's `validate`;
      a success stores the review and marks the request reviewed. */
  function CreateReview(db: ReviewDb, caller: UserId, requestId: nat, rating: Option<real>, content: string, now: nat): (r: (ReviewDb, Response))
    ensures GameRequests.RequestById(db.requests, requestId).None? ==> r == (db, BadRequest(InvalidRequestError))
    ensures !r.1.Created? ==> r.0 == db
    ensures r.1.Created? ==>
              && rating.Some? && 1.0 <= rating.value <= 5.0
              && GameRequests.RequestById(db.requests, requestId).Some?
              && ValidateReview(GameRequests.RequestById(db.requests, requestId).value, caller).None?
              && r.1.review == Review(Some(requestId), rating.value, content, now)
              && r.0.reviews == db.reviews + [r.1.review]
              && r.0.requests == GameRequests.Save(db.requests, GameRequests.RequestById(db.requests, requestId).value.(reviewStatus := true))
    ensures GameRequests.RequestById(db.requests, requestId).Some? && rating.Some? && 1.0 <= rating.value <= 5.0 ==>
              (r.1.Created? <==> ValidateReview(GameRequests.RequestById(db.requests, requestId).value, caller).None?)
    ensures GameRequests.RequestById(db.requests, requestId).Some? && rating.Some? && !(1.0 <= rating.value <= 5.0) ==>
              r == (db, BadRequest(RatingRangeError))
    ensures r.1.Created? || r.1.BadRequest?
  {
    match GameRequests.RequestById(db.requests, requestId)
    case None => (db, BadRequest(InvalidRequestError))
    case Some(g) =>
      match rating
      case None => (db, BadRequest(RatingRequiredError))
      case Some(v) =>
        match ValidateRating(v)
        case Failure(e) => (db, BadRequest(e))
        case Success(_) =>
          match ValidateReview(g, caller)
          case Some(e) => (db, BadRequest(e))
          case None =>
            var rv := Review(Some(requestId), v, content, now);
            (ReviewDb(GameRequests.Save(db.requests, g.(reviewStatus := true)), db.reviews + [rv]), Created(rv))
  }

  /** A request can be reviewed once: after a successful review the same
      caller is refused with the "already reviewed" message. */
  lemma ReviewOnce(db: ReviewDb, caller: UserId, requestId: nat, rating: real, content: string, now: nat, rating2: real, content2: string, later: nat)
    requires GameRequests.UniqueKeys(db.requests)
    requires CreateReview(db, caller, requestId, Some(rating), content, now).1.Created?
    requires 1.0 <= rating2 <= 5.0
    ensures var db' := CreateReview(db, caller, requestId, Some(rating), content, now).0;
            CreateReview(db', caller, requestId, Some(rating2), content2, later) == (db', BadRequest(AlreadyReviewedError))
  {
    var g := GameRequests.RequestById(db.requests, requestId).value;
    var db' := CreateReview(db, caller, requestId, Some(rating), content, now).0;
    var k :| 0 <= k < |db.requests| && db.requests[k] == g;
    assert db'.requests[k] == g.(reviewStatus := true);
    var g' := GameRequests.RequestById(db'.requests, requestId).value;
    assert g' == g.(reviewStatus := true) by {
      var j :| 0 <= j < |db'.requests| && db'.requests[j] == g';
      assert j == k;
    }
  }

  /** `Review.objects.order_by("-created_at")`: every review once, newest first. */
  function AllReviews(db: ReviewDb): (all: seq<Review>)
    ensures Query.NewestFirst(all, (rv: Review) => rv.createdAt)
    ensures multiset(all) == multiset(db.reviews)
  {
    Query.SortNewestFirst(db.reviews, (rv: Review) => rv.createdAt)
  }

  /** `ReviewListView.list`: all reviews newest first, ten per page; any
      failure, an unknown page included, is a 400 with a fixed message.
      Page `n` holds the newest-first reviews at positions `10(n-1)` onwards. */
  function ReviewList(db: ReviewDb, page: int): (r: Response)
    ensures r.Page? || r == BadRequest(ListFailedError)
    ensures r.Page? <==> 1 <= page <= Pagination.NumPages(|db.reviews|, Pagination.ReviewPageSize)
    ensures r.Page? ==> |r.reviews| <= 10 && forall x :: x in r.reviews ==> x in db.reviews
    ensures r.Page? ==> forall k :: 0 <= k < |r.reviews| ==>
              (page - 1) * 10 + k < |db.reviews| && r.reviews[k] == AllReviews(db)[(page - 1) * 10 + k]
    ensures r.Page? ==> Query.NewestFirst(r.reviews, (rv: Review) => rv.createdAt)
    ensures r.Page? ==> r.reviews == Pagination.Page(AllReviews(db), page, Pagination.ReviewPageSize).value
    ensures r.Page? ==> |r.reviews| == 10 || (page - 1) * 10 + |r.reviews| == |db.reviews|
  {
    var all := AllReviews(db);
    Query.SameElements(all, db.reviews);
    match Pagination.Page(all, page, Pagination.ReviewPageSize)
    case None => BadRequest(ListFailedError)
    case Some(p) =>
      assert forall x :: x in p ==> x in all;
      assert forall i, j :: 0 <= i < j < |p| ==> p[i] == all[(page - 1) * 10 + i] && p[j] == all[(page - 1) * 10 + j];
      Page(p)
  }

  /** Every review appears in the list, on the page its newest-first
      position puts it on. */
  lemma ReviewListCovers(db: ReviewDb, x: Review)
    requires x in db.reviews
    ensures exists k :: 0 <= k < |db.reviews| && AllReviews(db)[k] == x
                        && ReviewList(db, k / 10 + 1).Page?
                        && k % 10 < |ReviewList(db, k / 10 + 1).reviews|
                        && ReviewList(db, k / 10 + 1).reviews[k % 10] == x
  {
    var k := PositionOf(db, x);
    Pagination.ItemOnPage(AllReviews(db), k, Pagination.ReviewPageSize);
    assert ReviewList(db, k / 10 + 1).Page?;
  }

  /** A stored review's position in the newest-first list. */
  lemma PositionOf(db: ReviewDb, x: Review) returns (k: nat)
    requires x in db.reviews
    ensures k < |AllReviews(db)| && AllReviews(db)[k] == x
  {
    var all := AllReviews(db);
    assert x in multiset(all);
    k :| 0 <= k < |all| && all[k] == x;
  }

  /** The reviews of one request (`GameRequestReviewListAPIView`), newest first. */
  function RequestReviews(db: ReviewDb, requestId: nat): (r: seq<Review>)
    ensures forall x :: x in r <==> x in db.reviews && x.gameRequestId == Some(requestId)
    ensures forall x: Review | x.gameRequestId == Some(requestId) :: multiset(r)[x] == multiset(db.reviews)[x]
    ensures Query.NewestFirst(r, (rv: Review) => rv.createdAt)
  {
    Query.Select(db.reviews, (rv: Review) => rv.gameRequestId == Some(requestId), (rv: Review) => rv.createdAt)
  }

  /** The reviews written on requests ordered by `user` (`UserReviewListAPIView`), newest first. */
  function UserReviews(db: ReviewDb, user: UserId): (r: seq<Review>)
    ensures forall x :: x in r <==> x in db.reviews && AuthorId(db.requests, x) == Some(user)
    ensures forall x: Review | AuthorId(db.requests, x) == Some(user) :: multiset(r)[x] == multiset(db.reviews)[x]
    ensures Query.NewestFirst(r, (rv: Review) => rv.createdAt)
  {
    Query.Select(db.reviews, (rv: Review) => AuthorId(db.requests, rv) == Some(user), (rv: Review) => rv.createdAt)
  }

  /** The reviews of one user's requests for one game (`UserGameReviewListAPIView`), newest first. */
  function UserGameReviews(db: ReviewDb, user: UserId, game: nat): (r: seq<Review>)
    ensures forall x :: x in r <==> x in db.reviews && AuthorId(db.requests, x) == Some(user) && GameOf(db.requests, x) == Some(game)
    ensures forall x: Review | AuthorId(db.requests, x) == Some(user) && GameOf(db.requests, x) == Some(game) ::
              multiset(r)[x] == multiset(db.reviews)[x]
    ensures Query.NewestFirst(r, (rv: Review) => rv.createdAt)
  {
    Query.Select(db.reviews,
                 (rv: Review) => AuthorId(db.requests, rv) == Some(user) && GameOf(db.requests, rv) == Some(game),
                 (rv: Review) => rv.createdAt)
  }

  /** The game of the reviewed request. */
  function GameOf(requests: seq<GameRequests.GameRequest>, rv: Review): (r: Option<nat>)
    ensures r.None? <==> forall g :: g in requests ==> Some(g.id) != rv.gameRequestId
    ensures r.Some? ==> exists g :: g in requests && Some(g.id) == rv.gameRequestId && g.gameId == r.value
  {
    match rv.gameRequestId
    case None => None
    case Some(id) =>
      match GameRequests.RequestById(requests, id)
      case None => None
      case Some(g) => Some(g.gameId)
  }

  /** With unique request keys, a review's author and game are those of the
      request it names. */
  lemma ReviewOfRequest(requests: seq<GameRequests.GameRequest>, rv: Review, g: GameRequests.GameRequest)
    requires GameRequests.UniqueKeys(requests)
    requires g in requests && rv.gameRequestId == Some(g.id)
    ensures AuthorId(requests, rv) == Some(g.userId)
    ensures GameOf(requests, rv) == Some(g.gameId)
  {
    var h := GameRequests.RequestById(requests, g.id).value;
    var i :| 0 <= i < |requests| && requests[i] == g;
    var j :| 0 <= j < |requests| && requests[j] == h;
    assert i == j;
  }

  /** The per-request and per-user list views paginate their query ten to a
      page with no error handling of their own: a page outside the range is
      the paginator's 404. */
  function ListPage(items: seq<Review>, page: int): (r: Response)
    ensures r.Page? || r.PageMissing?
    ensures r.Page? <==> 1 <= page <= Pagination.NumPages(|items|, Pagination.ReviewPageSize)
    ensures r.Page? ==> |r.reviews| <= 10 && forall x :: x in r.reviews ==> x in items
  {
    match Pagination.Page(items, page, Pagination.ReviewPageSize)
    case None => PageMissing
    case Some(p) => Page(p)
  }

  /** Every review of the queried set appears on exactly the page its
      position puts it on. */
  lemma ListPageCovers(items: seq<Review>, k: nat)
    requires k < |items|
    ensures var r := ListPage(items, k / 10 + 1);
            r.Page? && k % 10 < |r.reviews| && r.reviews[k % 10] == items[k]
  {
    Pagination.ItemOnPage(items, k, Pagination.ReviewPageSize);
  }
}

=== FILE: text.dfy ===
/** String helpers: Python's `str(int)`, ASCII lower-casing and substring tests. */
module Text {

  /** The decimal digit character for `d`. */
  function DigitChar(d: nat): (c: char)
    requires d < 10
    ensures '0' <= c <= '9'
    ensures c as int - '0' as int == d
  {
    ('0' as int + d) as char
  }

  predicate IsDigit(c: char) {
    '0' <= c <= '9'
  }

  predicate AllDigits(s: string) {
    forall i :: 0 <= i < |s| ==> IsDigit(s[i])
  }

  /** `str(n)` for a non-negative Python int: decimal, no leading zeros. */
  function NatToString(n: nat): (s: string)
    ensures |s| >= 1
    ensures AllDigits(s)
    ensures |s| > 1 ==> s[0] != '0'
  {
    if n < 10 then [DigitChar(n)] else NatToString(n / 10) + [DigitChar(n % 10)]
  }

  /** The value of a string of decimal digits (`int(s)`). */
  function ParseDigits(s: string): nat
    requires AllDigits(s)
  {
    if |s| == 0 then 0
    else ParseDigits(s[..|s| - 1]) * 10 + (s[|s| - 1] as int - '0' as int)
  }

  /** Reading back the decimal text of `n` gives `n`. */
  lemma {:induction false} ParseNatToString(n: nat)
    ensures ParseDigits(NatToString(n)) == n
  {
    if n >= 10 {
      var s := NatToString(n);
      var p := NatToString(n / 10);
      assert s == p + [DigitChar(n % 10)];
      assert s[..|s| - 1] == p;
      ParseNatToString(n / 10);
    }
  }

  /** Distinct numbers have distinct decimal texts. */
  lemma NatToStringInjective(a: nat, b: nat)
    ensures NatToString(a) == NatToString(b) ==> a == b
  {
    ParseNatToString(a);
    ParseNatToString(b);
  }

  /** A fixed prefix followed by `x` determines `x`. */
  lemma PrefixCancel(p: string, x: string, y: string)
    ensures p + x == p + y ==> x == y
  {
    if p + x == p + y {
      assert x == (p + x)[|p|..];
      assert y == (p + y)[|p|..];
    }
  }

  /** Lower-casing of one character, restricted to ASCII letters. */
  function AsciiLower(c: char): char {
    if 'A' <= c <= 'Z' then (c as int + 32) as char else c
  }

  /** `s.lower()` on ASCII letters; other characters are kept. */
  function Lower(s: string): (r: string)
    ensures |r| == |s|
    ensures forall i :: 0 <= i < |s| ==> r[i] == AsciiLower(s[i])
  {
    seq(|s|, i requires 0 <= i < |s| => AsciiLower(s[i]))
  }

  /** `pat` occurs in `s` starting at index `j`. */
  predicate OccursAt(s: string, pat: string, j: int) {
    0 <= j && j + |pat| <= |s| && s[j..j + |pat|] == pat
  }

  /** `pat in s`. */
  predicate Contains(s: string, pat: string) {
    exists j | 0 <= j <= |s| :: OccursAt(s, pat, j)
  }
}

=== FILE: unread_counts.dfy ===
/** `ChatService` (chats/services.py): the per-membership unread counter,
    kept durably on each (room, user) membership and mirrored in an
    optional Redis cache under `unread_count:{room}:{user}`. */
module UnreadCounts {
  import opened Wrappers

  /** A membership is identified by (room id, user id). */
  type Key = (nat, nat)

  /** `durable` holds the membership rows and their `unread_count`;
      `cache` is `None` when no Redis client could be created at start-up. */
  datatype Counters = Counters(durable: map<Key, int>, cache: Option<map<Key, int>>)

  /** Which Redis calls raise `RedisError` during one operation. */
  datatype CacheHealth = Up | ReadsFail | WritesFail | Down {
    predicate ReadOk() { this == Up || this == WritesFail }
    predicate WriteOk() { this == Up || this == ReadsFail }
  }

  /** Every cached counter agrees with its membership row. */
  ghost predicate Coherent(c: Counters) {
    c.cache.Some? ==> forall k :: k in c.cache.value ==> k in c.durable && c.cache.value[k] == c.durable[k]
  }

  /** No counter, durable or cached, is negative. */
  ghost predicate NonNegative(c: Counters) {
    && (forall k :: k in c.durable ==> c.durable[k] >= 0)
    && (c.cache.Some? ==> forall k :: k in c.cache.value ==> c.cache.value[k] >= 0)
  }

  /** The count a membership row records, 0 when there is no such row. */
  function DurableCount(c: Counters, k: Key): int {
    if k in c.durable then c.durable[k] else 0
  }

  /** Redis `INCR`: an absent key counts from 0 and becomes 1. */
  function RedisIncr(m: map<Key, int>, k: Key): (m': map<Key, int>)
    ensures m'.Keys == m.Keys + {k}
    ensures k in m ==> m'[k] == m[k] + 1
    ensures k !in m ==> m'[k] == 1
    ensures forall j :: j in m && j != k ==> m'[j] == m[j]
  {
    m[k := if k in m then m[k] + 1 else 1]
  }

  /** The 300-second expiry of a cached counter, modelled as the removal
      of that key at an arbitrary moment. */
  function Evict(c: Counters, k: Key): (c': Counters)
    ensures c'.durable == c.durable
    ensures c.cache.None? ==> c'.cache.None?
    ensures c.cache.Some? ==> c'.cache.Some? && c'.cache.value.Keys == c.cache.value.Keys - {k}
    ensures c.cache.Some? ==> forall j :: j in c'.cache.value ==> c'.cache.value[j] == c.cache.value[j]
  {
    match c.cache
    case None => c
    case Some(m) => c.(cache := Some(m - {k}))
  }

  /** `get_unread_count`: read through the cache, filling it on a miss.
      Returns `None` when a Redis call raises (the handler then falls off
      its `except` clause), 0 when the membership does not exist. */
  function GetUnreadCount(c: Counters, room: nat, user: nat, health: CacheHealth): (r: (Counters, Option<int>))
    // the durable rows are only ever read
    ensures r.0.durable == c.durable
    // cache hit: the cached value, nothing else consulted or changed
    ensures c.cache.Some? && health.ReadOk() && (room, user) in c.cache.value ==>
              r == (c, Some(c.cache.value[(room, user)]))
    // cache miss on an existing row: the durable count, now also cached
    ensures c.cache.Some? && health == Up && (room, user) !in c.cache.value && (room, user) in c.durable ==>
              r.1 == Some(c.durable[(room, user)])
              && r.0.cache == Some(c.cache.value[(room, user) := c.durable[(room, user)]])
    // no Redis client: the durable count, and no cache appears
    ensures c.cache.None? ==> r == (c, Some(DurableCount(c, (room, user))))
    // a missing row answers 0 and changes nothing (unless the cache answered first)
    ensures (room, user) !in c.durable && (c.cache.None? || (health.ReadOk() && (room, user) !in c.cache.value)) ==>
              r == (c, Some(0))
    // no answer only when a Redis call raised
    ensures r.1.None? ==> c.cache.Some? && health != Up && r.0 == c
    // and a raising Redis call always ends without an answer
    ensures c.cache.Some? && !health.ReadOk() ==> r == (c, None)
    ensures c.cache.Some? && health == WritesFail && (room, user) !in c.cache.value && (room, user) in c.durable ==>
              r == (c, None)
  {
    var k := (room, user);
    match c.cache
    case None => (c, Some(DurableCount(c, k)))
    case Some(m) =>
      if !health.ReadOk() then (c, None)
      else if k in m then (c, Some(m[k]))
      else if k !in c.durable then (c, Some(0))
      else if !health.WriteOk() then (c, None)
      else (c.(cache := Some(m[k := c.durable[k]])), Some(c.durable[k]))
  }

  /** `increment_unread_count`: add one to the receiver's row, then `INCR`
      the cached counter. A missing row is a no-op; a Redis error is
      swallowed after the durable increment. */
  function IncrementUnreadCount(c: Counters, room: nat, receiver: nat, health: CacheHealth): (c': Counters)
    ensures (room, receiver) !in c.durable ==> c' == c
    ensures (room, receiver) in c.durable ==>
              c'.durable == c.durable[(room, receiver) := c.durable[(room, receiver)] + 1]
    ensures forall k :: k != (room, receiver) ==>
              (k in c'.durable <==> k in c.durable) && (k in c.durable ==> c'.durable[k] == c.durable[k])
    ensures c'.cache.None? <==> c.cache.None?
    ensures (room, receiver) in c.durable && c.cache.Some? && health.WriteOk() ==>
              c'.cache == Some(RedisIncr(c.cache.value, (room, receiver)))
    // a failing cache leaves the cache as it was, the durable increment stands
    ensures !health.WriteOk() ==> c'.cache == c.cache
  {
    var k := (room, receiver);
    if k !in c.durable then c
    else
      var d := c.durable[k := c.durable[k] + 1];
      match c.cache
      case Some(m) => if health.WriteOk() then Counters(d, Some(RedisIncr(m, k))) else Counters(d, c.cache)
      case None => Counters(d, None)
  }

  /** `reset_unread_count`: zero the row, then write 0 to the cache.
      A missing row changes nothing; a Redis error leaves the durable
      reset in place. */
  function ResetUnreadCount(c: Counters, room: nat, user: nat, health: CacheHealth): (c': Counters)
    ensures (room, user) !in c.durable ==> c' == c
    ensures (room, user) in c.durable ==> c'.durable == c.durable[(room, user) := 0]
    ensures (room, user) in c.durable && c.cache.Some? && health.WriteOk() ==>
              c'.cache == Some(c.cache.value[(room, user) := 0])
    ensures !health.WriteOk() ==> c'.cache == c.cache
    ensures c'.cache.None? <==> c.cache.None?
  {
    var k := (room, user);
    if k !in c.durable then c
    else
      var d := c.durable[k := 0];
      match c.cache
      case Some(m) => if health.WriteOk() then Counters(d, Some(m[k := 0])) else Counters(d, c.cache)
      case None => Counters(d, None)
  }

  /** With a coherent cache, a read answers the durable count and keeps
      the cache coherent. */
  lemma GetAnswersDurable(c: Counters, room: nat, user: nat, health: CacheHealth)
    requires Coherent(c)
    ensures Coherent(GetUnreadCount(c, room, user, health).0)
    ensures GetUnreadCount(c, room, user, health).1.Some? ==>
              GetUnreadCount(c, room, user, health).1 == Some(DurableCount(c, (room, user)))
  {
  }

  /** After a healthy reset both stores hold 0 for the pair, and coherence is kept. */
  lemma ResetZeroesBoth(c: Counters, room: nat, user: nat)
    requires Coherent(c) && (room, user) in c.durable
    ensures var c' := ResetUnreadCount(c, room, user, Up);
            Coherent(c') && DurableCount(c', (room, user)) == 0
            && GetUnreadCount(c', room, user, Up).1 == Some(0)
  {
  }

  /** Exactly when a healthy `INCR` leaves the cached counter equal to
      the durable one: the key was cached with the durable value, or it
      was absent and the durable count was 0. */
  lemma IncrementAgreement(c: Counters, room: nat, receiver: nat)
    requires c.cache.Some? && (room, receiver) in c.durable
    ensures var c' := IncrementUnreadCount(c, room, receiver, Up);
            var k := (room, receiver);
            (c'.cache.value[k] == c'.durable[k]) <==>
              ((k in c.cache.value && c.cache.value[k] == c.durable[k]) || (k !in c.cache.value && c.durable[k] == 0))
  {
  }

  /** Counters never become negative under reads, increments, resets or expiry. */
  lemma NonNegativePreserved(c: Counters, room: nat, user: nat, health: CacheHealth)
    requires NonNegative(c)
    ensures NonNegative(GetUnreadCount(c, room, user, health).0)
    ensures NonNegative(IncrementUnreadCount(c, room, user, health))
    ensures NonNegative(ResetUnreadCount(c, room, user, health))
    ensures NonNegative(Evict(c, (room, user)))
  {
  }

  /** As written, an increment after the cached entry expired writes 1 to
      the cache whatever the durable count is, and the next read returns
      that 1: row (1, 2) holds 3, the cache has lost the key, one message
      arrives, the row holds 4 and the read answers 1. */
  lemma IncrementAfterExpiryIsStale()
    ensures var c := Counters(map[(1, 2) := 3], Some(map[(1, 2) := 3]));
            var c1 := Evict(c, (1, 2));
            var c2 := IncrementUnreadCount(c1, 1, 2, Up);
            Coherent(c) && Coherent(c1) && !Coherent(c2)
            && c2.durable[(1, 2)] == 4 && GetUnreadCount(c2, 1, 2, Up).1 == Some(1)
  {
    var c := Counters(map[(1, 2) := 3], Some(map[(1, 2) := 3]));
    var c1 := Evict(c, (1, 2));
    assert c1.cache == Some(map[]);
    var c2 := IncrementUnreadCount(c1, 1, 2, Up);
    assert c2.cache == Some(map[(1, 2) := 1]);
  }

  /** The write-through the cache design intends: after the durable
      increment, the cache (if the key is cached at all) is set to the new
      durable count instead of being incremented on its own. */
  function IncrementUnreadCountCoherent(c: Counters, room: nat, receiver: nat, health: CacheHealth): (c': Counters)
    ensures (room, receiver) !in c.durable ==> c' == c
    ensures (room, receiver) in c.durable ==>
              c'.durable == c.durable[(room, receiver) := c.durable[(room, receiver)] + 1]
    ensures Coherent(c) && health.WriteOk() ==> Coherent(c')
    ensures c'.cache.None? <==> c.cache.None?
  {
    var k := (room, receiver);
    if k !in c.durable then c
    else
      var d := c.durable[k := c.durable[k] + 1];
      match c.cache
      case Some(m) =>
        if health.WriteOk() && k in m then Counters(d, Some(m[k := d[k]])) else Counters(d, c.cache)
      case None => Counters(d, None)
  }

  /** With the corrected increment, any sequence of healthy operations and
      expiries keeps the cache coherent, so a read always answers the
      durable count. */
  lemma CorrectedStaysCoherent(c: Counters, room: nat, user: nat)
    requires Coherent(c)
    ensures Coherent(IncrementUnreadCountCoherent(c, room, user, Up))
    ensures Coherent(ResetUnreadCount(c, room, user, Up))
    ensures Coherent(Evict(c, (room, user)))
    ensures GetUnreadCount(IncrementUnreadCountCoherent(c, room, user, Up), room, user, Up).1
              == Some(DurableCount(IncrementUnreadCountCoherent(c, room, user, Up), (room, user)))
  {
    GetAnswersDurable(IncrementUnreadCountCoherent(c, room, user, Up), room, user, Up);
  }
}

=== FILE: wallets.dfy ===
/** The coin wallet (wallets/serializers/wallets_serializers.py and
    wallets/views/wallet_view.py): one integer balance per user, recharged
    by a positive amount and withdrawn from without overdraft. */
module Wallets {
  import opened Wrappers

  type UserId = nat

  /** Each user's wallet balance (`Wallet.coin`); a user without a key has no wallet. */
  type Ledger = map<UserId, int>

  /** Why a `coin` payload was refused, as the serializer reports it on the `coin` field. */
  datatype CoinError =
    | NotAnInteger                 // missing or not an integer: the field's own check
    | NotPositive(message: string)
    | Insufficient(message: string)

  datatype Response =
    | Balance(userId: UserId, coin: int)           // 200
    | Updated(message: string, coin: int)          // 200
    | WalletNotFound                               // 404
    | Invalid(error: CoinError)                    // 400 from the serializer
    | InsufficientFunds                            // 400 from the view itself
    | UserNotFound                                 // `get_user_by_id` raised
    | ServerError                                  // the database refused the update

  const RechargeNotPositive: string := "충전할 코인 양은 1 이상이어야 합니다."
  const WithdrawNotPositive: string := "차감할 코인 양은 1 이상이어야 합니다."
  const BalanceTooLow: string := "잔액이 부족합니다."
  const RechargedMessage: string := "코인이 성공적으로 충전되었습니다."
  const WithdrawnMessage: string := "코인이 성공적으로 차감되었습니다."

  /** The largest value of the `coin` column, a 32-bit signed integer
      (`IntegerField`). An update past it is refused by the database. */
  const MaxCoin: int := 2147483647

  ghost predicate NoOverdraft(l: Ledger) {
    forall u :: u in l ==> l[u] >= 0
  }

  /** Every balance fits the `coin` column. */
  ghost predicate FitsColumn(l: Ledger) {
    forall u :: u in l ==> l[u] <= MaxCoin
  }

  /** `WalletRechargeSerializer.validate`: any positive amount, unchanged. */
  function ValidateRecharge(coin: Option<int>): (r: Result<int, CoinError>)
    ensures r.Success? <==> coin.Some? && coin.value > 0
    ensures r.Success? ==> r.value == coin.value
    ensures coin.Some? && coin.value <= 0 ==> r == Failure(NotPositive(RechargeNotPositive))
    ensures coin.None? ==> r == Failure(NotAnInteger)
  {
    match coin
    case None => Failure(NotAnInteger)
    case Some(c) => if c <= 0 then Failure(NotPositive(RechargeNotPositive)) else Success(c)
  }

  /** `WalletWithdrawSerializer.validate`: positivity first, then, when a
      wallet is in the context, no more than its balance. */
  function ValidateWithdraw(coin: Option<int>, balance: Option<int>): (r: Result<int, CoinError>)
    ensures r.Success? <==> coin.Some? && coin.value > 0 && (balance.None? || coin.value <= balance.value)
    ensures r.Success? ==> r.value == coin.value
    ensures coin.Some? && coin.value <= 0 ==> r == Failure(NotPositive(WithdrawNotPositive))
    ensures coin.Some? && coin.value > 0 && balance.Some? && balance.value < coin.value ==>
              r == Failure(Insufficient(BalanceTooLow))
  {
    match coin
    case None => Failure(NotAnInteger)
    case Some(c) =>
      if c <= 0 then Failure(NotPositive(WithdrawNotPositive))
      else if balance.Some? && balance.value < c then Failure(Insufficient(BalanceTooLow))
      else Success(c)
  }

  /** `WalletBalanceView.get`. */
  function GetBalance(l: Ledger, user: UserId): (r: Response)
    ensures user !in l <==> r == WalletNotFound
    ensures user in l ==> r == Balance(user, l[user])
  {
    if user !in l then WalletNotFound else Balance(user, l[user])
  }

  /** `WalletRechargeView.post`: the amount is validated before the wallet
      is looked up; a success adds it to that one balance. A sum past the
      column's range makes the `UPDATE` fail, an uncaught error, and the
      balance stays as it was. */
  function Recharge(l: Ledger, user: UserId, coin: Option<int>): (r: (Ledger, Response))
    ensures r.1.Updated? <==> ValidateRecharge(coin).Success? && user in l && l[user] + coin.value <= MaxCoin
    ensures ValidateRecharge(coin).Success? && user in l && l[user] + coin.value > MaxCoin ==> r == (l, ServerError)
    ensures r.1.Updated? ==> r.0 == l[user := l[user] + coin.value] && r.1 == Updated(RechargedMessage, l[user] + coin.value)
    ensures !r.1.Updated? ==> r.0 == l
    ensures ValidateRecharge(coin).Failure? ==> r.1 == Invalid(ValidateRecharge(coin).error)
    ensures ValidateRecharge(coin).Success? && user !in l ==> r.1 == WalletNotFound
  {
    match ValidateRecharge(coin)
    case Failure(e) => (l, Invalid(e))
    case Success(amount) =>
      if user !in l then (l, WalletNotFound)
      else if l[user] + amount > MaxCoin then (l, ServerError)
      else
        var l' := l[user := l[user] + amount];
        (l', Updated(RechargedMessage, l'[user]))
  }

  /** `WalletWithdrawView.post`: the wallet is looked up first, then the
      amount is validated against its balance; a success subtracts it. */
  function Withdraw(l: Ledger, user: UserId, coin: Option<int>): (r: (Ledger, Response))
    ensures user !in l ==> r == (l, WalletNotFound)
    ensures r.1.Updated? <==> user in l && coin.Some? && 0 < coin.value <= l[user]
    ensures user in l && ValidateWithdraw(coin, Some(l[user])).Failure? ==>
              r == (l, Invalid(ValidateWithdraw(coin, Some(l[user])).error))
    ensures r.1.Updated? ==> r.0 == l[user := l[user] - coin.value] && r.1 == Updated(WithdrawnMessage, l[user] - coin.value)
    ensures !r.1.Updated? ==> r.0 == l
    // the view's own balance check can never fire: the serializer already refused
    ensures r.1 != InsufficientFunds
  {
    if user !in l then (l, WalletNotFound)
    else match ValidateWithdraw(coin, Some(l[user]))
      case Failure(e) => (l, Invalid(e))
      case Success(amount) =>
        if l[user] < amount then (l, InsufficientFunds)
        else
          var l' := l[user := l[user] - amount];
          (l', Updated(WithdrawnMessage, l'[user]))
  }

  /** `WalletAdminRechargeView.post`: the same arithmetic as a recharge,
      on the wallet of the user named in the path, who must exist first. */
  function AdminRecharge(l: Ledger, users: set<UserId>, target: UserId, coin: Option<int>): (r: (Ledger, Response))
    ensures target !in users ==> r == (l, UserNotFound)
    ensures target in users ==> r == Recharge(l, target, coin)
  {
    if target !in users then (l, UserNotFound) else Recharge(l, target, coin)
  }

  /** No wallet operation can make a balance negative. */
  lemma NoOverdraftPreserved(l: Ledger, user: UserId, coin: Option<int>, users: set<UserId>)
    requires NoOverdraft(l)
    ensures NoOverdraft(Recharge(l, user, coin).0)
    ensures NoOverdraft(Withdraw(l, user, coin).0)
    ensures NoOverdraft(AdminRecharge(l, users, user, coin).0)
  {
  }

  /** No wallet operation stores a balance the column cannot hold. */
  lemma FitsColumnPreserved(l: Ledger, user: UserId, coin: Option<int>, users: set<UserId>)
    requires FitsColumn(l)
    ensures FitsColumn(Recharge(l, user, coin).0)
    ensures FitsColumn(Withdraw(l, user, coin).0)
    ensures FitsColumn(AdminRecharge(l, users, user, coin).0)
  {
  }

  /** A recharge succeeds exactly when the new balance fits the column,
      and withdrawing what was just recharged restores every balance. */
  lemma RechargeThenWithdraw(l: Ledger, user: UserId, amount: int)
    requires user in l && l[user] >= 0 && amount > 0
    ensures Recharge(l, user, Some(amount)).1.Updated? <==> l[user] + amount <= MaxCoin
    ensures l[user] + amount > MaxCoin ==> Recharge(l, user, Some(amount)) == (l, ServerError)
    ensures l[user] + amount <= MaxCoin ==>
              Withdraw(Recharge(l, user, Some(amount)).0, user, Some(amount)) == (l, Updated(WithdrawnMessage, l[user]))
  {
    if l[user] + amount > MaxCoin {
      return;
    }
    var l1 := Recharge(l, user, Some(amount)).0;
    assert l1 == l[user := l[user] + amount];
    assert l1[user] - amount == l[user];
    assert l1[user := l1[user] - amount] == l;
    var r := Withdraw(l1, user, Some(amount));
    assert r.1.Updated?;
    assert r.0 == l;
  }

  /** The whole balance can be withdrawn, leaving exactly 0. */
  lemma WithdrawAll(l: Ledger, user: UserId)
    requires user in l && l[user] > 0
    ensures Withdraw(l, user, Some(l[user])).1 == Updated(WithdrawnMessage, 0)
  {
  }
}

=== FILE: wrappers.dfy ===
/** Failure-carrying datatypes shared by every module of the model. */
module Wrappers {

  /** A value that may be absent: Python's `None` or an optional field. */
  datatype Option<+T> = None | Some(value: T)

  /** A success value or an error value: a handler that returns or raises. */
  datatype Result<+R, +E> = Success(value: R) | Failure(error: E)

  /** The three outcomes of an ORM `.get(...)`: one row, `DoesNotExist`,
      or `MultipleObjectsReturned`. */
  datatype Lookup<+T> = Found(value: T) | NotFound | Multiple
}
